=== FILE: README.md ===
# Doxygen to XML doc comment converter, modelled in Dafny

`convert.py` rewrites Doxygen comment blocks in a source file into `///`
XML documentation comments. The loop of `convert` reads the file line by line.
A line that holds a comment opener (`/**` or `///`) starts a block. Each line
of a block goes to `handleCommentLine`. That function collects the text of
the pending directive (`@brief`, `@param`, `@return`, `@author`, `@date`, or
a remark). Before a new directive, and when the block ends,
`handleExistingData` writes the pending directive as `/// <summary>`,
`/// <param name="…">` and similar lines. Lines outside a comment are copied
through unchanged.

The model has these modules:

- `Results` holds `Option`, `Result`, and the three ways the source stops: the
  unknown opener, the missing directive word, and the parameter without
  whitespace.
- `Text` holds the Python string operations the source uses. These are
  `strip`/`lstrip`/`rstrip`, `find`, `in`, slicing, `*` on strings,
  `replace` and `split()[0]`, over the `str.isspace` whitespace set. It also
  holds `Split` and `Join` on a separator. The source calls neither; they
  are reference definitions that pin down `replace` (ReplaceIsJoinOfSplit)
  and the emitter's `LogicalLines`.
- `Directives` holds the directive words and the kinds they select.
- `Extract` holds the two regular-expression searches, written as leftmost
  scans, plus `dataFromString`, `dataFromLine`, the directive word and the
  parameter split.
- `BlockState` holds the four globals `sEType`, `sEVar`, `sEData` and
  `iIndent` as one value, and `endComment`.
- `Emitter` holds `handleExistingData`. It returns the lines it writes. A
  separate reference description says which logical lines a flush stands for.
- `Comment` holds `handleCommentLine`.
- `Driver` holds the loop of `convert`. It turns a list of input lines into
  the list of written strings, or into the reason the run stopped.
- `Corrected` holds the loop with two defects repaired (see Findings).
- `Scenarios` holds whole-file behaviour on concrete inputs.

## Model

| member | source | states |
|---|---|---|
| Text.RStrip | convert.py:80 | the right-trim keeps the longest prefix after which only whitespace follows, and the result does not end in whitespace |
| Text.LStrip | convert.py:123 | the left-trim drops exactly a whitespace prefix, and the result does not start with whitespace |
| Text.Find | convert.py:79 | `find` gives an index where the pattern occurs with no earlier occurrence, or -1 when it occurs nowhere |
| Text.Repeat | convert.py:30 | repeating a string n times gives n times its length, and nothing for n <= 0 |
| Text.FirstWord | convert.py:156 | `split()[0]` is the first maximal run of non-whitespace, and it is absent exactly when the text is all whitespace |
| Text.Split | convert.py:36 | splitting gives at least one piece, no piece contains the separator, and every cut is at the leftmost occurrence: no occurrence starts inside a piece that a separator follows, even one overlapping that separator |
| Text.JoinSplit | convert.py:36 | joining the pieces of a split with the separator gives back the string |
| Text.SplitJoin | convert.py:36 | when the separator's first two characters differ, pieces that never hold those two characters in a row come back out of a split of their join |
| Text.ReplaceIsJoinOfSplit | convert.py:36 | `replace` equals splitting on the target and joining with the replacement |
| Directives.KindOfWord | convert.py:156-177 | the kind a directive word selects gives back that word, and it is an unrecognised kind exactly when the word is none of brief, param, return, author, date or remark |
| Directives.KindOfWordOfKind | convert.py:197-203 | every recognised kind is selected by its own word |
| Extract.FindMarker | convert.py:126 | the marker search finds the first `@` or `\`, and finds nothing exactly when the line has none |
| Extract.OpenerAt | convert.py:195 | at one index the opener pattern matches `/**` or `///`, and nothing when neither occurs there |
| Extract.SearchOpener | convert.py:245-247 | the opener search gives the leftmost index where an opener matches, and nothing when none matches anywhere |
| Extract.DataFromString | convert.py:69-80 | the data is a piece of the line starting at `start` with no trailing whitespace; for the `/*` form with a `*/` on the line it ends before the first `*/`; only whitespace is dropped after it |
| Extract.DataFromOpenLine | convert.py:77-80 | for an opener other than `/*` the data is the rest of the line, right-trimmed |
| Extract.DataFromLine | convert.py:82-102 | an opener other than `/*` and `///` stops the run; otherwise the text is empty when the line lacks `* ` (or `/// `), and else it is the piece of the line that starts right after the first such prefix, ends by the first `*/` (block form) or the line end, does not end in whitespace and is followed by whitespace only |
| Extract.DataFromDetermined | convert.py:77-80 | the description of the text read from a start index leaves no choice: two texts that both meet it are equal |
| Extract.DataFromLineForm | convert.py:94-102 | under `///` the text of a line is everything after its first `/// `, right-trimmed, and nothing when the line has no `/// ` |
| Extract.MarkerSegment | convert.py:156 | the text taken is the part between the first marker and the next marker or the line's end |
| Extract.DirectiveWord | convert.py:156 | the directive word is the first whitespace-delimited word after the first marker, and the run stops exactly when no word follows |
| Extract.SplitParam | convert.py:164-168 | the name, the whitespace run and the description make up the inline text, the name has no whitespace and the description does not start with any; the split fails exactly when there is no whitespace |
| Emitter.Head | convert.py:30 | the head is four spaces per indent level, followed by `/// ` |
| Emitter.WrapPlacesTags | convert.py:46-56 | in a wrapped run the opening tag stands only in front of the first line, the closing tag only behind the last, and the lines in between are unchanged |
| Emitter.Flush | convert.py:14-67 | nothing happens without a pending kind or without text; otherwise kind, name and text are cleared and the indent is kept; an unrecognised kind writes nothing, the others write at least one line, and every line starts with the head |
| Emitter.FlushWritesLogicalLines | convert.py:36-62 | the text a flush writes is, line by line, the head followed by each logical line of the directive (tags and one line per accumulated line) |
| Emitter.SummaryLines | convert.py:39-44 | a brief writes a `<summary>` line, one line per accumulated line and a `</summary>` line |
| Emitter.TaggedLines | convert.py:46-56 | a one-line tag is written around the accumulated lines, one output line per accumulated line |
| Comment.IndentOf | convert.py:122-123 | the indent level is the count of leading whitespace characters divided by four |
| Comment.LStripRemovesLeadingSpace | convert.py:123 | the length lost to `lstrip` is the count of leading whitespace characters |
| Comment.ToRemark | convert.py:129-132 | a single-line directive that gets a continuation line is flushed and becomes an empty remark at the same indent |
| Comment.Continuation | convert.py:126-150 | a line without a marker appends its text to the pending directive, after turning a single-line directive into a remark; it fails exactly for an unknown opener |
| Comment.StartParam | convert.py:163-168 | a `param` directive takes its name and description from a split of its inline text, and fails exactly when that text has no whitespace |
| Comment.StartDirectiveOutcome | convert.py:159-177 | only a param can fail, and exactly when its inline text has no whitespace; kind and indent are kept; a param's name and description split its inline text; remark and unrecognised words keep the text and name |
| Comment.OneValueDirective | convert.py:159-177 | brief, return, author and date keep the name and read the line from one character past the first occurrence of their word, up to the first `*/` (block form) or the line end, right-trimmed |
| Comment.OneValueDirectiveOpenLine | convert.py:159-177 | under an opener other than `/*`, the text of brief, return, author and date is `line[start:].rstrip()`, with `start` one character past the first occurrence of the word |
| Comment.Directive | convert.py:152-183 | a line with a marker flushes first and then starts the kind its word selects; it fails exactly when no word follows or a param has no whitespace |
| Comment.HandleCommentLine | convert.py:104-183 | a line not starting with `///` ends a `///` block, flushes, resets and is copied through; the indent is taken from a block's first line; a line without a marker under an unknown opener stops the run; the other failures come from the directive word and the param split |
| Comment.BlockEnds | convert.py:114-119 | a block ends only on the line that ends a `///` run or on a `*/` under the `/*` opener, and it then leaves the fresh state |
| Comment.ClosingLineWritesPending | convert.py:134-149 | under `/*`, a line without a marker that holds `*/` ends the block: a pending brief, remark or unrecognised directive is written with the line's own text as its last accumulated line, at the indent taken from this line if none was set yet, and the state is the fresh one |
| Comment.ClosingLineAfterSingleLine | convert.py:126-149 | the same closing line after a pending `@param`, `@return`, `@author` or `@date`: that directive is written on its own, the line's text follows as a separate remark at the same indent, and the state is the fresh one |
| Comment.HandleKeepsValid | convert.py:104-183 | between two lines a kind is pending and text is only kept once the indent is known |
| Comment.AppendExtendsRun | convert.py:134-143 | appending a non-empty text adds it as one more accumulated line; an empty text adds nothing |
| Comment.AccumulatedLinesComeBack | convert.py:134-143 | when no accumulated line contains `!B`, splitting the data at the break text gives back exactly the accumulated lines |
| Comment.FreshBlock | convert.py:4-12 | the state `endComment` leaves writes nothing when flushed and takes its indent from the next line |
| Driver.Step | convert.py:237-252 | outside a comment a line without an opener is copied through; a line with one records the matched text as the opener; inside a block the opener is kept; the state keeps its shape |
| Driver.StepRoutes | convert.py:241-249 | a line read inside a comment, or one that opens a comment, goes to the comment-line handler under the kept or matched opener, and the step keeps exactly the handler's failure or its state, lines and continuation flag |
| Driver.RunKeepsGood | convert.py:237-252 | between lines of a run that has not stopped, the state keeps its shape |
| Driver.PassThrough | convert.py:250-252 | lines without an opener, read outside a comment, come out unchanged and in order |
| Driver.NoCommentsNoChange | convert.py:237-252 | a file with no opener converts to itself |
| Driver.LineRunEnd | convert.py:114-119 | inside a `///` block, a line not starting with `///` flushes, is copied through and ends the block, and it is not searched for a new opener |
| Driver.RunSnoc | convert.py:237 | a run over the lines plus one more line is the run followed by one step |
| Driver.RunOne | convert.py:237 | a run over one line is one step |
| Corrected.StepFixed | convert.py:245-249 | the corrected step opens a block under the `/*` form for a `/**` match, and a run of it never stops for an unknown opener |
| Corrected.BlockOpenerStops | convert.py:89-101 | as written, a line whose first opener is `/**` and that has no marker stops the run |
| Corrected.BlockOpenerNeverCloses | convert.py:146 | as written, a `/**` block never ends |
| Corrected.BlockOpenerCloses | convert.py:146-149 | corrected, such a line is read, and it opens and ends its block exactly when it holds `*/` |
| Corrected.BlockFormLineCloses | convert.py:146-149 | corrected, a line without a marker inside a block never fails, and it ends the block exactly when it holds `*/` |
| Corrected.RunFixedKnowsItsOpeners | convert.py:237-252 | a corrected run never stops for an unknown opener |
| Corrected.FixedAgreesWithoutBlockOpeners | convert.py:237-252 | on files without a `/**` opener the corrected loop and the loop as written agree |
| Corrected.EndOfFileDropsPending | convert.py:237-254 | as written, the text a run ends with inside a `///` block is not written, though one more plain line would write it |
| Corrected.EndOfFileEndsLineRun | convert.py:237-254 | corrected, for a run that does not end inside a `/*` block, the end of the file acts like a following line without an opener: adding such a line only adds that line to the output |
| Corrected.PlainLineEndsLineRun | convert.py:114-119 | a line without an opener inside a `///` block flushes and ends the block |
| Corrected.NoOpenerNoLineMarker | convert.py:114 | a line without `///` anywhere cannot start with `///` once stripped |
| Scenarios.LineFormStart | convert.py:245-247 | a line starting with `///` opens a `///` block at its first character and is not the line that ends one |
| Scenarios.BlockFormStart | convert.py:245-247 | a line starting with `/**` opens a block under the matched text `/**` |
| Scenarios.FirstMarkerAt | convert.py:126 | the marker search finds the first marker character |
| Scenarios.WordAfterFirstMarker | convert.py:156 | a word followed by whitespace right after the first marker is the directive word |
| Scenarios.OneQuietLine | convert.py:237-254 | a one-line file whose line writes nothing produces nothing as written; the corrected conversion writes the final flush |
| Scenarios.SingleBriefLine | convert.py:159-161 | a file that is one `@brief` line starting with `///` at indent 0 writes nothing as written, and the brief when corrected |
| Scenarios.BlockOpenerExample | convert.py:247 | the file `/**` stops as written and converts when corrected |
| Scenarios.PendingAtEndExample | convert.py:39-44 | the file `/// @brief Does X.` writes nothing as written, and the three summary lines when corrected |

## Left out

- Reading and writing files, the temporary output file, copying it over the input, the timing and the report. The model maps the input lines to the written strings.
- The line and comment counters `iLine` and `iComments` and the command line. Neither affects what is written.
- The three ways `convert` stops mid-file become `Err` results: the `sys.exit()` after the unknown-opener message (convert.py:99-101), the `IndexError` of `split()[0]` when no word follows a marker (convert.py:156), and the `AttributeError` of `.span()` when a `param` has no whitespace (convert.py:165-166). In the source each also leaves the partial temporary output file behind and ends the run over all remaining files on the command line. Neither that nor the printed message is modelled.
- The regular-expression engine. Both patterns are written as explicit leftmost scans.
- Python 3 string semantics are assumed. Whitespace is the `str.isspace` set, which `strip`, `split()` and `\s` share.
- The `sEData.rstrip()` at convert.py:33 discards its result. It changes nothing, so it has no counterpart.
- The second `RETURN` branch at convert.py:58-59 can never be taken. It has no counterpart.
- The line that ends a `///` run is copied through and is not searched for a new opener, so an opener later on that line opens nothing (convert.py:114-119, 241-242).
- Text.Repeat: states the length and that every character comes from the repeated string, not the exact content. It is only applied to four spaces, where this fixes the content (Emitter.Head states the result).
- Text.Replace, Text.Join, Text.Concat and Emitter.Render are stated through lemmas rather than their own contracts: Text.ReplaceIsJoinOfSplit, Text.JoinSplit and Emitter.FlushWritesLogicalLines.
- Driver.Run (the loop, convert.py:237-252) and Driver.Convert (`convert` on the lines of one file) are stated through lemmas: Driver.RunKeepsGood, Driver.PassThrough, Driver.NoCommentsNoChange, Driver.RunSnoc and Driver.RunOne.
- Comment.Append (convert.py:134-143) is stated through Comment.AppendExtendsRun.
- Comment.WithIndent (convert.py:122-123) is stated through the indent clause of Comment.HandleCommentLine.
- BlockState.EndComment (`endComment`, convert.py:4-12) is stated through Comment.FreshBlock.

## Findings

| source | as written | input that shows it | evidently intended | confidence | as-written member | corrected member |
|---|---|---|---|---|---|---|
| convert.py:247 | the matched text `/**` is recorded as the opener, but convert.py:78, 89, 146 and 179 compare it with `/*`, so a `/**` line without a marker stops the program and `*/` never ends a `/**` block | a file whose first line is `/**` | a `/**` match is handled as the `/*` block form | not executed | Corrected.BlockOpenerStops | Corrected.BlockOpenerCloses |
| convert.py:237-254 | the loop ends with the file without a final flush, so a directive still pending in a block that reaches the end of the file is never written | a file that is the single line `/// @brief Does X.` | the pending directive is written when the file ends, as a following plain line would write it | not executed | Corrected.EndOfFileDropsPending | Corrected.EndOfFileEndsLineRun |

=== FILE: blockstate.dfy ===
/** The state of the comment block being converted.

    The source keeps it in four module-level globals (convert.py:8-12,
    207): the pending directive kind `sEType`, the parameter name `sEVar`,
    the accumulated text `sEData`, and the block's indent level `iIndent`
    (-1 until the first line of the block has been seen). Here it is one
    immutable value threaded through the functions that change it.
 */
module BlockState {

  import opened Results
  import opened Directives

  datatype Block = Block(
    kind: Option<Kind>,    // `None` right after a flush
    name: Option<string>,  // set by a `param` directive
    data: string,          // lines joined by the break text
    indent: int            // negative until computed for this block
  )

  /** `endComment()` (convert.py:4-12): the state a new block starts from. */
  function EndComment(): Block {
    Block(Some(Brief), None, [], -1)
  }

  /** The shape every state between two lines has: a kind is pending, the
      indent is either computed or the -1 sentinel, and text has only been
      collected once the indent is known. */
  predicate Valid(b: Block) {
    && b.kind.Some?
    && b.indent >= -1
    && (b.indent < 0 ==> b.data == [])
  }
}

=== FILE: comment.dfy ===
// One line inside a comment block: `handleCommentLine`
// (convert.py:104-183), with the lines it writes returned instead of
// written to the output file.
//
// The opener argument is the text the driver recorded, compared as a
// string exactly as the source does: the block-form branches test for
// `/*`, the line-form branches for `///`.
module Comment {

  import opened Results
  import opened Text
  import opened Directives
  import opened Extract
  import opened BlockState
  import opened Emitter

  datatype Handled = Handled(block: Block, out: seq<string>, inComment: bool)

  /** The number of whitespace characters a line starts with. */
  function LeadingSpace(line: string): (n: nat)
    ensures n <= |line| && AllSpace(line[..n])
    ensures n == |line| || !IsSpace(line[n])
  {
    var n := SkipSpaces(line, 0);
    assert line[0..n] == line[..n];
    n
  }

  /** `int((len(line) - len(line.lstrip())) / 4)` (convert.py:123): the
      leading whitespace count divided by four, truncated. Python's `/`
      gives a float here and `int` truncates; on a non-negative count that
      is the same as Dafny's division. */
  function IndentOf(line: string): (n: nat)
    ensures n == LeadingSpace(line) / 4
  {
    LStripRemovesLeadingSpace(line);
    (|line| - |LStrip(line)|) / 4
  }

  /** `lstrip` removes exactly the leading whitespace. */
  lemma LStripRemovesLeadingSpace(line: string)
    ensures |line| - |LStrip(line)| == LeadingSpace(line)
  {
    var k := |line| - |LStrip(line)|;
    var j := LeadingSpace(line);
    forall i | 0 <= i < k ensures IsSpace(line[i]) {
      assert line[i] == line[..k][i];
    }
    forall i | 0 <= i < j ensures IsSpace(line[i]) {
      assert line[i] == line[..j][i];
    }
    assert k < |line| ==> !IsSpace(line[k]) by {
      if k < |line| {
        assert LStrip(line)[0] == line[k];
      }
    }
  }

  /** The block with its indent fixed: computed from this line only while
      it is still unset (convert.py:122-123). */
  function WithIndent(b: Block, line: string): Block {
    if b.indent < 0 then b.(indent := IndentOf(line)) else b
  }

  /** Adding a continuation line's text to the accumulated text
      (convert.py:134-143): empty text adds nothing, the first text is
      taken as it is, later texts follow the break text. */
  function Append(data: string, text: string): string {
    if text == [] then data
    else if data != [] then data + BREAK + text
    else text
  }

  // Flushes and ends the block when the line carries `*/` and the opener
  // is the block form (convert.py:146-149, 179-182).
  function CloseIfEnded(b: Block, out: seq<string>, line: string, opener: string): (h: Handled)
    ensures h.inComment <==> !(opener == BLOCK_FORM && Contains(line, CLOSE_COMMENT))
    ensures h.inComment ==> h == Handled(b, out, true)
    ensures !h.inComment ==> h == Handled(EndComment(), out + Flush(b).out, false)
  {
    if opener == BLOCK_FORM && Contains(line, CLOSE_COMMENT) then
      Handled(EndComment(), out + Flush(b).out, false)
    else
      Handled(b, out, true)
  }

  /** The text a single-line directive turns into when another line
      follows it (convert.py:129-132): the directive is flushed and an
      empty remark takes its place. A flush that writes nothing leaves the
      parameter name as it was. */
  function ToRemark(b: Block): (f: Flushed)
    requires b.kind.Some? && SingleLine(b.kind.value)
    ensures f.block.kind == Some(Remark) && f.block.data == []
    ensures f.block.indent == b.indent
    ensures f.out == Flush(b).out
  {
    var fl := Flush(b);
    Flushed(fl.block.(kind := Some(Remark), data := []), fl.out)
  }

  /** A comment line without `@` or `\` (convert.py:126-150). */
  function Continuation(b: Block, line: string, opener: string): (r: Result<Handled>)
    ensures r.Err? <==> opener != BLOCK_FORM && opener != LINE_FORM
    ensures r.Err? ==> r.error == UnknownCommentOpener(opener)
    ensures r.Ok? && b.kind.Some? && SingleLine(b.kind.value) ==>
              var pending := ToRemark(b).block;
              var text := DataFromLine(line, opener).value;
              r.value == CloseIfEnded(pending.(data := Append([], text)), Flush(b).out, line, opener)
    ensures r.Ok? && !(b.kind.Some? && SingleLine(b.kind.value)) ==>
              var text := DataFromLine(line, opener).value;
              r.value == CloseIfEnded(b.(data := Append(b.data, text)), [], line, opener)
  {
    var f := if b.kind.Some? && SingleLine(b.kind.value) then ToRemark(b) else Flushed(b, []);
    var text :- DataFromLine(line, opener);
    Ok(CloseIfEnded(f.block.(data := Append(f.block.data, text)), f.out, line, opener))
  }

  /** The text after a directive word: `dataFromString(line, opener,
      line.find(word) + len(word) + 1)`. The search is over the whole line,
      so an earlier occurrence of the word wins. */
  function InlineText(line: string, opener: string, word: string): (r: string)
    requires word != []
    ensures IsDataFrom(line, opener, Find(line, word) + |word| + 1, r)
  {
    DataFromString(line, opener, Find(line, word) + |word| + 1)
  }

  /** A `param` directive (convert.py:163-168): the name is the inline text
      before its first whitespace run and the description the text after
      it, so name, run and description put back together are the inline
      text; without whitespace the split fails. */
  function StartParam(b: Block, line: string, opener: string): (r: Result<Block>)
    ensures r.Err? <==> NoSpace(InlineText(line, opener, "param"))
    ensures r.Err? ==> r.error == ParamWithoutWhitespace
    ensures r.Ok? ==> r.value.kind == b.kind && r.value.indent == b.indent && r.value.name.Some?
    ensures r.Ok? ==> IsParamSplit(InlineText(line, opener, "param"), r.value.name.value, r.value.data)
  {
    var text := InlineText(line, opener, "param");
    match SplitParam(text)
    case Err(e) => Err(e)
    case Ok(split) => Ok(b.(name := Some(split.0), data := split.1))
  }

  /** The text a new directive starts with (convert.py:159-177). A word
      without a branch here (`remark` or an unknown word) keeps the
      block's text and name as they are. */
  function StartDirective(b: Block, kind: Kind, line: string, opener: string): (r: Result<Block>)
    ensures kind == Param ==> r == StartParam(b, line, opener)
    ensures kind != Param ==> r.Ok? && r.value.kind == b.kind && r.value.indent == b.indent
                              && r.value.name == b.name
    ensures kind == Brief || kind == Return || kind == Author || kind == Date ==>
              r.value.data == InlineText(line, opener, WordOf(kind))
    ensures kind == Remark || kind.Other? ==> r == Ok(b)
  {
    if kind == Param then StartParam(b, line, opener)
    else if kind == Brief || kind == Return || kind == Author || kind == Date then
      // each of these branches searches the line for its own word
      Ok(b.(data := InlineText(line, opener, WordOf(kind))))
    else Ok(b)
  }

  /** What a new directive does with its block: only a parameter can
      fail, and exactly when its inline text has no whitespace; kind and
      indent never change; a parameter's name and description split its
      inline text; a remark or an unknown word keeps the text and name. */
  lemma StartDirectiveOutcome(b: Block, kind: Kind, line: string, opener: string)
    ensures var r := StartDirective(b, kind, line, opener);
            && (r.Err? <==> kind == Param && NoSpace(InlineText(line, opener, "param")))
            && (r.Ok? ==> r.value.kind == b.kind && r.value.indent == b.indent)
            && (kind == Param && r.Ok? ==>
                  r.value.name.Some? && IsParamSplit(InlineText(line, opener, "param"), r.value.name.value, r.value.data))
            && (kind == Remark || kind.Other? ==> r.value.name == b.name && r.value.data == b.data)
  {
  }

  /** A one-value directive (brief, return, author, date) keeps the name
      and reads its line from one character past the first occurrence of
      its word, up to the cut point, right-trimmed. */
  lemma OneValueDirective(b: Block, kind: Kind, line: string, opener: string)
    requires kind == Brief || kind == Return || kind == Author || kind == Date
    ensures var r := StartDirective(b, kind, line, opener);
            && r.Ok? && r.value.name == b.name
            && IsDataFrom(line, opener, Find(line, WordOf(kind)) + |WordOf(kind)| + 1, r.value.data)
  {
    var w := WordOf(kind);
    var r := StartDirective(b, kind, line, opener);
    var d := InlineText(line, opener, w);
    assert IsDataFrom(line, opener, Find(line, w) + |w| + 1, d);
    assert r.value.data == d;
  }

  /** Under an opener other than the block form, a one-value directive's
      text is `line[start:].rstrip()`, with `start` one character past the
      first occurrence of its word. */
  lemma OneValueDirectiveOpenLine(b: Block, kind: Kind, line: string, opener: string)
    requires kind == Brief || kind == Return || kind == Author || kind == Date
    requires opener != BLOCK_FORM
    ensures var r := StartDirective(b, kind, line, opener);
            r.Ok? && r.value.data == RStrip(Slice(line, Find(line, WordOf(kind)) + |WordOf(kind)| + 1, |line|))
  {
    var w := WordOf(kind);
    OneValueText(line, opener, w);
  }

  /** For an opener other than the block form, the inline text after a
      word is `line[start:].rstrip()`, with `start` one character past the
      word's first occurrence. */
  lemma OneValueText(line: string, opener: string, word: string)
    requires word != [] && opener != BLOCK_FORM
    ensures InlineText(line, opener, word) == RStrip(Slice(line, Find(line, word) + |word| + 1, |line|))
  {
    var start := Find(line, word) + |word| + 1;
    assert InlineText(line, opener, word) == DataFromString(line, opener, start);
    if start < |line| {
      assert Slice(line, start, |line|) == line[start..];
      DataFromOpenLine(line, opener, start);
    } else {
      assert CutPoint(line, opener) == |line|;
      assert Slice(line, start, |line|) == [];
    }
  }

  /** A comment line with `@` or `\` (convert.py:152-183): the pending
      directive is flushed first, then the word after the marker selects
      the new kind. */
  function Directive(b: Block, line: string, opener: string): (r: Result<Handled>)
    requires !NoMarker(line)
    ensures r.Err? <==> DirectiveWord(line).Err?
                        || (DirectiveWord(line).value == "param"
                            && NoSpace(InlineText(line, opener, "param")))
    ensures r.Ok? ==>
              var kind := KindOfWord(DirectiveWord(line).value);
              var started := StartDirective(Flush(b).block.(kind := Some(kind)), kind, line, opener);
              && started.Ok?
              && r.value == CloseIfEnded(started.value, Flush(b).out, line, opener)
  {
    var f := Flush(b);
    var word :- DirectiveWord(line);
    var kind := KindOfWord(word);
    var started :- StartDirective(f.block.(kind := Some(kind)), kind, line, opener);
    Ok(CloseIfEnded(started, f.out, line, opener))
  }

  /** A line-form block ends at the first line whose stripped text does
      not start with `///` (convert.py:114). */
  predicate EndsLineRun(line: string, opener: string) {
    opener == LINE_FORM && !StartsWith(Strip(line), LINE_FORM)
  }

  /** `handleCommentLine(line, opener)`: the new state, the lines written,
      and whether the block goes on after this line. */
  function HandleCommentLine(b: Block, line: string, opener: string): (r: Result<Handled>)
    // the line that ends a line-form run: flush, reset, copy the line through
    ensures EndsLineRun(line, opener) ==>
              r == Ok(Handled(EndComment(), Flush(b).out + [line], false))
    // the indent is computed on the first line of a block and then kept
    ensures r.Ok? && r.value.inComment ==>
              r.value.block.indent == (if b.indent < 0 then IndentOf(line) else b.indent)
    // a line without a marker under an opener the extractor does not know stops the run
    ensures !EndsLineRun(line, opener) && NoMarker(line) && opener != BLOCK_FORM && opener != LINE_FORM ==>
              r == Err(UnknownCommentOpener(opener))
    // the other failures come from the directive word and the parameter split
    ensures r.Err? && !NoMarker(line) ==> r.error == MissingDirectiveWord || r.error == ParamWithoutWhitespace
  {
    if EndsLineRun(line, opener) then
      Ok(Handled(EndComment(), Flush(b).out + [line], false))
    else
      var b1 := WithIndent(b, line);
      if NoMarker(line) then Continuation(b1, line, opener) else Directive(b1, line, opener)
  }

  // Only the line that ends a line-form run and a `*/` under the `/*`
  // opener end a block, and a block that ends leaves the state a new block
  // starts from.
  lemma BlockEnds(b: Block, line: string, opener: string)
    ensures var r := HandleCommentLine(b, line, opener);
            && (r.Ok? && !r.value.inComment ==> r.value.block == EndComment())
            && (r.Ok? && !r.value.inComment <==>
                  EndsLineRun(line, opener)
                  || (r.Ok? && opener == BLOCK_FORM && Contains(line, CLOSE_COMMENT)))
  {
  }

  // A line without a marker that carries `*/` under the `/*` opener ends
  // the block: a pending brief, remark or unrecognised directive is
  // written with the line's own text as its last accumulated line, and the state is the one a new block
  // starts from (convert.py:134-149).
  lemma ClosingLineWritesPending(b: Block, line: string, texts: seq<string>)
    requires b.kind.Some? && !SingleLine(b.kind.value)
    requires forall k :: 0 <= k < |texts| ==> texts[k] != []
    requires b.data == Accumulated(texts)
    requires NoMarker(line) && Contains(line, CLOSE_COMMENT)
    ensures var text := DataFromLine(line, BLOCK_FORM).value;
            var pending := if text == [] then texts else texts + [text];
            HandleCommentLine(b, line, BLOCK_FORM)
              == Ok(Handled(EndComment(), Flush(WithIndent(b, line).(data := Accumulated(pending))).out, false))
  {
    var text := DataFromLine(line, BLOCK_FORM).value;
    AppendExtendsRun(texts, text);
    assert !EndsLineRun(line, BLOCK_FORM);
    var b1 := WithIndent(b, line);
    var out := Flush(b1.(data := Append(b1.data, text))).out;
    assert [] + out == out;
  }

  // The same closing line after a single-line directive (`@param`,
  // `@return`, `@author`, `@date`): the directive is written on its own,
  // and the line's text follows as a separate remark.
  lemma ClosingLineAfterSingleLine(b: Block, line: string)
    requires b.kind.Some? && SingleLine(b.kind.value)
    requires NoMarker(line) && Contains(line, CLOSE_COMMENT)
    ensures var text := DataFromLine(line, BLOCK_FORM).value;
            var b1 := WithIndent(b, line);
            HandleCommentLine(b, line, BLOCK_FORM)
              == Ok(Handled(EndComment(), Flush(b1).out + Flush(Block(Some(Remark), None, text, b1.indent)).out, false))
  {
    var text := DataFromLine(line, BLOCK_FORM).value;
    assert !EndsLineRun(line, BLOCK_FORM);
    var b1 := WithIndent(b, line);
    var pending := ToRemark(b1).block;
    assert pending.(data := Append([], text)).indent == b1.indent;
    assert Render(Remark, pending.name, text, b1.indent) == Render(Remark, None, text, b1.indent);
  }

  /** Between lines the block keeps the shape `Valid` describes. */
  lemma HandleKeepsValid(b: Block, line: string, opener: string)
    ensures Valid(b) && HandleCommentLine(b, line, opener).Ok? ==> Valid(HandleCommentLine(b, line, opener).value.block)
  {
    if Valid(b) && !EndsLineRun(line, opener) {
      var b1 := WithIndent(b, line);
      if NoMarker(line) {
        ContinuationKeepsShape(b1, line, opener);
      } else {
        DirectiveKeepsShape(b1, line, opener);
      }
    }
  }

  lemma ContinuationKeepsShape(b: Block, line: string, opener: string)
    requires b.kind.Some? && b.indent >= 0
    ensures Continuation(b, line, opener).Ok? ==> Valid(Continuation(b, line, opener).value.block)
  {
  }

  lemma DirectiveKeepsShape(b: Block, line: string, opener: string)
    requires !NoMarker(line) && b.indent >= 0
    ensures Directive(b, line, opener).Ok? ==> Valid(Directive(b, line, opener).value.block)
  {
    var r := Directive(b, line, opener);
    if r.Ok? {
      var kind := KindOfWord(DirectiveWord(line).value);
      var fb := Flush(b).block;
      assert fb.indent == b.indent;
      var started := StartDirective(fb.(kind := Some(kind)), kind, line, opener);
      assert started.Ok? && started.value.kind == Some(kind) && started.value.indent == b.indent;
    }
  }

  /** The accumulated text of a run of non-empty lines: `BREAK`-joined, and
      empty for no lines. */
  function Accumulated(texts: seq<string>): string {
    if texts == [] then [] else Join(texts, BREAK)
  }

  /** Appending a continuation text extends the run of accumulated lines
      by that text, and by nothing when it is empty. */
  lemma {:induction false} AppendExtendsRun(texts: seq<string>, text: string)
    requires forall k :: 0 <= k < |texts| ==> texts[k] != []
    ensures text == [] ==> Append(Accumulated(texts), text) == Accumulated(texts)
    ensures text != [] ==> Append(Accumulated(texts), text) == Accumulated(texts + [text])
  {
    if text != [] && texts != [] {
      JoinSnoc(texts, text, BREAK);
    }
  }

  lemma {:induction false} JoinSnoc(texts: seq<string>, text: string, sep: string)
    requires |texts| >= 1
    ensures Join(texts + [text], sep) == Join(texts, sep) + sep + text
    decreases |texts|
  {
    if |texts| > 1 {
      assert (texts + [text])[1..] == texts[1..] + [text];
      JoinSnoc(texts[1..], text, sep);
    }
  }

  /** When no accumulated line contains `!B`, the emitter's split on the
      break text gives back exactly the lines that were accumulated. */
  lemma AccumulatedLinesComeBack(texts: seq<string>)
    requires |texts| >= 1
    requires forall k :: 0 <= k < |texts| ==> NoPair(texts[k], '!', 'B')
    ensures Split(Accumulated(texts), BREAK) == texts
  {
    assert BREAK[0] == '!' && BREAK[1] == 'B';
    SplitJoin(texts, BREAK);
  }

  /** A fresh block writes nothing when flushed and takes its indent from
      the next line it sees. */
  lemma FreshBlock(line: string, opener: string)
    ensures Valid(EndComment())
    ensures Flush(EndComment()) == Flushed(EndComment(), [])
    ensures var r := HandleCommentLine(EndComment(), line, opener);
            r.Ok? && r.value.inComment ==> r.value.block.indent == IndentOf(line)
  {
  }
}

=== FILE: corrected.dfy ===
// Two places where `convert` does not do what it evidently means to,
// each pinned down on the model of the code as written (module `Driver`)
// and repaired in a corrected loop whose intended property is proved.
//
// 1. The opener search matches `/**`, and that matched text is recorded
//    as the block's opener (convert.py:247), but every block-form test
//    compares the opener with `/*` (convert.py:78, 89, 146, 179). So a
//    `/**` line without a directive marker stops the program, and a
//    closing `*/` never ends a `/**` block. The correction records the
//    block form for a `/**` match.
// 2. The loop ends with the file (convert.py:237-254) without flushing, so
//    a directive still pending when the last line is a comment line is
//    never written. The correction flushes once after the last line.
module Corrected {

  import opened Results
  import opened Text
  import opened Directives
  import opened Extract
  import opened BlockState
  import opened Emitter
  import opened Comment
  import opened Driver

  /** The opener form the extraction code compares with, for the text the
      opener search matched. */
  function FormOf(matched: string): (form: string)
    ensures matched == "/**" ==> form == BLOCK_FORM
    ensures matched != "/**" ==> form == matched
  {
    if matched == "/**" then BLOCK_FORM else matched
  }

  /** `Good` for the corrected loop: inside a comment the opener is one of
      the two forms the extraction code knows. */
  predicate GoodFixed(c: Converter) {
    && Valid(c.block)
    && (!c.inComment ==> c.block == EndComment())
    && (c.inComment ==> c.opener == BLOCK_FORM || c.opener == LINE_FORM)
  }

  // One iteration of the corrected loop: as `Step`, but a `/**` match
  // opens a block under the block form.
  function StepFixed(c: Converter, line: string): (r: Result<Stepped>)
    ensures !c.inComment && SearchOpener(line).None? ==> r == Ok(Stepped(c, [line]))
    ensures !c.inComment && SearchOpener(line).Some? && r.Ok? ==>
              r.value.conv.opener == FormOf(OpenerAt(line, SearchOpener(line).value).value)
    ensures GoodFixed(c) && r.Ok? ==> GoodFixed(r.value.conv)
    // the opener is always one the extraction code knows, so that failure cannot happen
    ensures GoodFixed(c) && r.Err? ==> !r.error.UnknownCommentOpener?
  {
    if c.inComment then
      HandleKeepsValid(c.block, line, c.opener);
      BlockEnds(c.block, line, c.opener);
      var h :- HandleCommentLine(c.block, line, c.opener);
      Ok(Stepped(Converter(h.block, h.inComment, c.opener), h.out))
    else
      match SearchOpener(line)
      case Some(i) =>
        var opener := FormOf(OpenerAt(line, i).value);
        HandleKeepsValid(c.block, line, opener);
        BlockEnds(c.block, line, opener);
        var h :- HandleCommentLine(c.block, line, opener);
        Ok(Stepped(Converter(h.block, h.inComment, opener), h.out))
      case None =>
        Ok(Stepped(c, [line]))
  }

  function RunFixed(c: Converter, lines: seq<string>): (r: Result<Stepped>)
    decreases |lines|
  {
    if lines == [] then Ok(Stepped(c, [])) else
      var before :- RunFixed(c, lines[..|lines| - 1]);
      var last :- StepFixed(before.conv, lines[|lines| - 1]);
      Ok(Stepped(last.conv, before.out + last.out))
  }

  /** The corrected conversion: the corrected loop, then one last flush of
      whatever directive is still pending. */
  function ConvertFixed(lines: seq<string>): Result<seq<string>> {
    var r :- RunFixed(Start(), lines);
    Ok(r.out + Flush(r.conv.block).out)
  }

  /** A corrected run over one line is that line's corrected step. */
  lemma RunFixedOne(c: Converter, line: string)
    ensures RunFixed(c, [line]) == StepFixed(c, line)
  {
    assert [line][..0] == [];
    assert RunFixed(c, []) == Ok(Stepped(c, []));
    if StepFixed(c, line).Ok? {
      assert [] + StepFixed(c, line).value.out == StepFixed(c, line).value.out;
    }
  }

  /** The corrected loop over `lines` followed by one more line is the
      loop over `lines` and then one corrected step. */
  lemma RunFixedSnoc(c: Converter, lines: seq<string>, line: string)
    ensures RunFixed(c, lines + [line])
            == (match RunFixed(c, lines)
                case Err(e) => Err(e)
                case Ok(before) =>
                  match StepFixed(before.conv, line)
                  case Err(e) => Err(e)
                  case Ok(last) => Ok(Stepped(last.conv, before.out + last.out)))
  {
    assert (lines + [line])[..|lines|] == lines;
  }

  // ---- Finding 1: the `/**` opener --------------------------------------

  // As written: a line whose first opener is `/**` and that has no
  // directive marker stops the whole run, whatever else it holds.
  lemma BlockOpenerStops(c: Converter, line: string)
    requires !c.inComment
    requires SearchOpener(line).Some? && OpenerAt(line, SearchOpener(line).value) == Some("/**")
    requires NoMarker(line)
    ensures Step(c, line) == Err(UnknownCommentOpener("/**"))
  {
  }

  // As written: a `/**` block is never ended by its closer; only a
  // failure stops it.
  lemma BlockOpenerNeverCloses(c: Converter, line: string)
    requires c.inComment && c.opener == "/**"
    ensures Step(c, line).Ok? ==> Step(c, line).value.conv.inComment
  {
  }

  // Corrected: a `/**` line without a marker is read, and if it carries
  // `*/` the block opens and ends on that line.
  lemma BlockOpenerCloses(c: Converter, line: string)
    requires GoodFixed(c) && !c.inComment
    requires SearchOpener(line).Some? && OpenerAt(line, SearchOpener(line).value) == Some("/**")
    requires NoMarker(line)
    ensures StepFixed(c, line).Ok?
    ensures !StepFixed(c, line).value.conv.inComment <==> Contains(line, CLOSE_COMMENT)
  {
  }

  // Corrected: a block-form line without a marker never fails, and a
  // `*/` on it ends the block.
  lemma BlockFormLineCloses(c: Converter, line: string)
    requires GoodFixed(c) && c.inComment && c.opener == BLOCK_FORM
    requires NoMarker(line)
    ensures StepFixed(c, line).Ok?
    ensures !StepFixed(c, line).value.conv.inComment <==> Contains(line, CLOSE_COMMENT)
  {
  }

  /** Corrected: a run never stops for an unknown opener. */
  lemma {:induction false} RunFixedKnowsItsOpeners(c: Converter, lines: seq<string>)
    requires GoodFixed(c)
    ensures RunFixed(c, lines).Ok? ==> GoodFixed(RunFixed(c, lines).value.conv)
    ensures RunFixed(c, lines).Err? ==> !RunFixed(c, lines).error.UnknownCommentOpener?
    decreases |lines|
  {
    if lines != [] {
      RunFixedKnowsItsOpeners(c, lines[..|lines| - 1]);
    }
  }

  // On files without a `/**` opener the correction changes nothing in
  // the loop.
  lemma {:induction false} FixedAgreesWithoutBlockOpeners(c: Converter, lines: seq<string>)
    requires !c.inComment || c.opener != "/**"
    requires forall k :: 0 <= k < |lines| && SearchOpener(lines[k]).Some? ==>
               OpenerAt(lines[k], SearchOpener(lines[k]).value) != Some("/**")
    ensures RunFixed(c, lines) == Run(c, lines)
    ensures Run(c, lines).Ok? ==> !Run(c, lines).value.conv.inComment || Run(c, lines).value.conv.opener != "/**"
    decreases |lines|
  {
    if lines != [] {
      FixedAgreesWithoutBlockOpeners(c, lines[..|lines| - 1]);
    }
  }

  // ---- Finding 2: the end of the file -----------------------------------

  /** As written: when the lines end inside a line-form block, the pending
      directive is missing from the output, although one more plain line
      would have written it. */
  lemma EndOfFileDropsPending(c: Converter, lines: seq<string>, plain: string)
    requires Run(c, lines).Ok?
    requires Run(c, lines).value.conv.inComment && Run(c, lines).value.conv.opener == LINE_FORM
    requires !StartsWith(Strip(plain), LINE_FORM)
    ensures var s := Run(c, lines).value;
            Run(c, lines + [plain]) == Ok(Stepped(Converter(EndComment(), false, LINE_FORM),
                                                s.out + Flush(s.conv.block).out + [plain]))
  {
    var s := Run(c, lines).value;
    var last := Stepped(Converter(EndComment(), false, LINE_FORM), Flush(s.conv.block).out + [plain]);
    LineRunEnd(s.conv, plain);
    assert Step(s.conv, plain) == Ok(last);
    RunSnoc(c, lines, plain);
    assert Run(c, lines + [plain]) == Ok(Stepped(last.conv, s.out + last.out));
    assert s.out + last.out == s.out + Flush(s.conv.block).out + [plain];
  }

  /** Corrected: the end of the file ends a line-form block exactly as a
      following line without `///` does, so adding such a line at the end
      only adds that line to the output. */
  lemma EndOfFileEndsLineRun(lines: seq<string>, plain: string)
    requires SearchOpener(plain).None?
    requires RunFixed(Start(), lines).Ok? ==>
               var s := RunFixed(Start(), lines).value;
               !s.conv.inComment || s.conv.opener == LINE_FORM
    ensures ConvertFixed(lines).Ok? <==> ConvertFixed(lines + [plain]).Ok?
    ensures ConvertFixed(lines).Ok? ==> ConvertFixed(lines + [plain]).value == ConvertFixed(lines).value + [plain]
  {
    RunFixedSnoc(Start(), lines, plain);
    match RunFixed(Start(), lines)
    case Err(_) =>
    case Ok(s) =>
      RunFixedKnowsItsOpeners(Start(), lines);
      PlainAfterRun(s, plain);
  }

  /** After a run that stopped outside a comment or inside a line-form
      block, one more line without an opener adds exactly that line to
      what the final flush gives. */
  lemma PlainAfterRun(s: Stepped, plain: string)
    requires GoodFixed(s.conv) && (!s.conv.inComment || s.conv.opener == LINE_FORM)
    requires SearchOpener(plain).None?
    ensures StepFixed(s.conv, plain).Ok?
    ensures var last := StepFixed(s.conv, plain).value;
            s.out + last.out + Flush(last.conv.block).out == s.out + Flush(s.conv.block).out + [plain]
  {
    assert Flush(EndComment()).out == [];
    if s.conv.inComment {
      PlainLineEndsLineRun(s.conv, plain);
      var f := Flush(s.conv.block).out;
      assert s.out + (f + [plain]) + [] == s.out + f + [plain];
    } else {
      assert s.out + [plain] + [] == s.out + [] + [plain];
    }
  }

  /** Inside a line-form block, the corrected step on a line without an
      opener writes the pending directive and that line, and ends the block. */
  lemma PlainLineEndsLineRun(c: Converter, plain: string)
    requires c.inComment && c.opener == LINE_FORM
    requires SearchOpener(plain).None?
    ensures StepFixed(c, plain) == Ok(Stepped(Converter(EndComment(), false, LINE_FORM), Flush(c.block).out + [plain]))
  {
    NoOpenerNoLineMarker(plain);
    assert EndsLineRun(plain, LINE_FORM);
  }

  /** A line with no `///` anywhere cannot start with `///` once stripped. */
  lemma NoOpenerNoLineMarker(line: string)
    requires SearchOpener(line).None?
    ensures !StartsWith(Strip(line), LINE_FORM)
  {
    var t := LStrip(line);
    var k := |line| - |t|;
    var st := Strip(line);
    assert OpenerAt(line, k).None?;
    assert !OccursAt(line, LINE_FORM, k);
    assert |st| >= 3 ==> st[..3] == line[k..k + 3];
  }
}

=== FILE: directives.dfy ===
/** The directive vocabulary (convert.py:197-204).

    The source keeps the kind of the pending directive as a plain string:
    one of the constants `brief`, `param`, `return`, `author`, `date`,
    `remark`, or whatever word followed the `@`/`\` marker. `Kind` keeps
    that open-endedness: `Other` carries a word the emitter has no branch for.
 */
module Directives {

  datatype Kind = Brief | Param | Return | Author | Date | Remark | Other(word: string)

  /** The word that follows `@`/`\` to select a kind. */
  function WordOf(k: Kind): string {
    match k
    case Brief => "brief"
    case Param => "param"
    case Return => "return"
    case Author => "author"
    case Date => "date"
    case Remark => "remark"
    case Other(w) => w
  }

  predicate IsKnownWord(w: string) {
    w == "brief" || w == "param" || w == "return" || w == "author" || w == "date" || w == "remark"
  }

  /** The kind a directive word selects; comparison is exact (no case folding). */
  function KindOfWord(w: string): (k: Kind)
    ensures WordOf(k) == w
    ensures k.Other? <==> !IsKnownWord(w)
  {
    if w == "brief" then Brief
    else if w == "param" then Param
    else if w == "return" then Return
    else if w == "author" then Author
    else if w == "date" then Date
    else if w == "remark" then Remark
    else Other(w)
  }

  /** A kind whose word is spelled by `WordOf` is read back by `KindOfWord`,
      except an `Other` that carries a known word (that value never arises). */
  lemma KindOfWordOfKind(k: Kind)
    requires k.Other? ==> !IsKnownWord(k.word)
    ensures KindOfWord(WordOf(k)) == k
  {
  }

  /** The kinds that take a one-line value (convert.py:129). */
  predicate SingleLine(k: Kind) {
    k == Param || k == Return || k == Author || k == Date
  }
}

=== FILE: driver.dfy ===
/** The line loop of `convert` (convert.py:225-252): every input line is
    either handed to the comment-line handler or copied through, and the
    lines written are collected in order instead of going to a file.

    Input lines are the strings the file iterator yields, each with its
    own line terminator; output is the sequence of strings written, whose
    concatenation is the converted file.
 */
module Driver {

  import opened Results
  import opened Text
  import opened Extract
  import opened BlockState
  import opened Emitter
  import opened Comment

  /** The loop's state: the block state, `bInComment`, `sCommentOpen`. */
  datatype Converter = Converter(block: Block, inComment: bool, opener: string)

  datatype Stepped = Stepped(conv: Converter, out: seq<string>)

  /** The state before the first line (convert.py:226-231). */
  function Start(): Converter {
    Converter(EndComment(), false, [])
  }

  /** What holds between two lines of a run that has not failed: outside a
      comment the block is fresh, inside one the opener is one of the two
      texts the opener search can match. */
  predicate Good(c: Converter) {
    && Valid(c.block)
    && (!c.inComment ==> c.block == EndComment())
    && (c.inComment ==> c.opener == "/**" || c.opener == LINE_FORM)
  }

  /** One iteration of the loop (convert.py:237-252). Outside a comment, a
      line with an opener starts a block under the opener text it matched,
      and a line without one is copied through unchanged. */
  function Step(c: Converter, line: string): (r: Result<Stepped>)
    ensures !c.inComment && SearchOpener(line).None? ==> r == Ok(Stepped(c, [line]))
    ensures !c.inComment && SearchOpener(line).Some? && r.Ok? ==>
              r.value.conv.opener == OpenerAt(line, SearchOpener(line).value).value
    ensures c.inComment && r.Ok? ==> r.value.conv.opener == c.opener
    ensures Good(c) && r.Ok? ==> Good(r.value.conv)
  {
    if c.inComment then
      HandleKeepsValid(c.block, line, c.opener);
      BlockEnds(c.block, line, c.opener);
      var h :- HandleCommentLine(c.block, line, c.opener);
      Ok(Stepped(Converter(h.block, h.inComment, c.opener), h.out))
    else
      match SearchOpener(line)
      case Some(i) =>
        var opener := OpenerAt(line, i).value;
        HandleKeepsValid(c.block, line, opener);
        BlockEnds(c.block, line, opener);
        var h :- HandleCommentLine(c.block, line, opener);
        Ok(Stepped(Converter(h.block, h.inComment, opener), h.out))
      case None =>
        Ok(Stepped(c, [line]))
  }

  /** Where a line goes (convert.py:241-252): a line read inside a comment
      goes to the comment-line handler under the kept opener, a line that
      opens a comment goes there under the text the opener search matched,
      and the step keeps exactly what the handler returns: its failure, or
      its state, its lines and whether the block goes on. */
  lemma StepRoutes(c: Converter, line: string)
    requires c.inComment || SearchOpener(line).Some?
    ensures var op := if c.inComment then c.opener else OpenerAt(line, SearchOpener(line).value).value;
            var h := HandleCommentLine(c.block, line, op);
            var r := Step(c, line);
            && (r.Err? <==> h.Err?)
            && (r.Ok? ==> r.value == Stepped(Converter(h.value.block, h.value.inComment, op), h.value.out))
  {
  }

  /** The loop over all lines, in order; the first failure stops it. */
  function Run(c: Converter, lines: seq<string>): (r: Result<Stepped>)
    decreases |lines|
  {
    if lines == [] then Ok(Stepped(c, [])) else
      var before :- Run(c, lines[..|lines| - 1]);
      var last :- Step(before.conv, lines[|lines| - 1]);
      Ok(Stepped(last.conv, before.out + last.out))
  }

  /** `convert` on the lines of one file: the lines written, or the reason
      the run stopped. A block still open at the end of the file is not
      flushed. */
  function Convert(lines: seq<string>): Result<seq<string>> {
    var r :- Run(Start(), lines);
    Ok(r.out)
  }

  /** Between lines the loop keeps the shape `Good` describes. */
  lemma {:induction false} RunKeepsGood(c: Converter, lines: seq<string>)
    requires Good(c)
    ensures Run(c, lines).Ok? ==> Good(Run(c, lines).value.conv)
    decreases |lines|
  {
    if lines != [] {
      RunKeepsGood(c, lines[..|lines| - 1]);
    }
  }

  /** Lines none of which holds a comment opener, read outside a comment,
      come out unchanged, in the same order and number. */
  lemma {:induction false} PassThrough(c: Converter, lines: seq<string>)
    requires !c.inComment
    requires forall k :: 0 <= k < |lines| ==> SearchOpener(lines[k]).None?
    ensures Run(c, lines) == Ok(Stepped(c, lines))
    decreases |lines|
  {
    if lines != [] {
      var init := lines[..|lines| - 1];
      var last := lines[|lines| - 1];
      PassThrough(c, init);
      assert SearchOpener(last).None?;
      assert Step(c, last) == Ok(Stepped(c, [last]));
      assert init + [last] == lines;
    }
  }

  /** A file with no opener anywhere converts to itself. */
  lemma NoCommentsNoChange(lines: seq<string>)
    requires forall k :: 0 <= k < |lines| ==> SearchOpener(lines[k]).None?
    ensures Convert(lines) == Ok(lines)
  {
    PassThrough(Start(), lines);
  }

  /** Inside a line-form block, a line whose stripped text does not start
      with `///` flushes the pending directive, resets the state, is copied
      through unchanged and ends the block. It is not searched for a new
      opener, even if it holds one. */
  lemma LineRunEnd(c: Converter, line: string)
    requires c.inComment && c.opener == LINE_FORM
    requires !StartsWith(Strip(line), LINE_FORM)
    ensures Step(c, line) == Ok(Stepped(Converter(EndComment(), false, LINE_FORM), Flush(c.block).out + [line]))
  {
  }

  /** The loop over `lines` followed by one more line is the loop over
      `lines` and then one step. */
  lemma RunSnoc(c: Converter, lines: seq<string>, line: string)
    ensures Run(c, lines + [line])
            == (match Run(c, lines)
                case Err(e) => Err(e)
                case Ok(before) =>
                  match Step(before.conv, line)
                  case Err(e) => Err(e)
                  case Ok(last) => Ok(Stepped(last.conv, before.out + last.out)))
  {
    assert (lines + [line])[..|lines|] == lines;
  }

  /** A run over one line is that line's step. */
  lemma RunOne(c: Converter, line: string)
    ensures Run(c, [line]) == Step(c, line)
  {
    assert [line][..0] == [];
    assert Run(c, []) == Ok(Stepped(c, []));
    if Step(c, line).Ok? {
      assert [] + Step(c, line).value.out == Step(c, line).value.out;
    }
  }
}

=== FILE: emitter.dfy ===
/** Writing out the pending directive: `handleExistingData`
    (convert.py:14-67).

    A flush writes the pending directive as `///` lines in the target
    syntax and clears kind, name and text together. Every output line
    carries the block's head, four spaces per indent level followed by
    `/// `; the break text inside the accumulated data becomes a newline
    plus that head, so each accumulated line lands on its own output line.
 */
module Emitter {

  import opened Results
  import opened Text
  import opened Directives
  import opened Extract
  import opened BlockState

  /** `("    " * indent) + "/// "` (convert.py:30). */
  function Head(indent: int): (h: string)
    ensures |h| == 4 + (if indent <= 0 then 0 else 4 * indent)
    ensures forall i :: 0 <= i < |h| - 4 ==> h[i] == ' '
    ensures h[|h| - 4..] == "/// "
  {
    var pad := Repeat("    ", indent);
    assert forall i :: 0 <= i < |pad| ==> pad[i] == ' ';
    pad + "/// "
  }

  /** `str(sEVar)`: Python renders a missing name as `None`. */
  function NameText(name: Option<string>): string {
    match name
    case Some(n) => n
    case None => "None"
  }

  /** The writes of a flush that has something to write (convert.py:30-62).
      An unrecognised kind has no branch, so nothing is written for it; the
      second `RETURN` branch (convert.py:58-59) can never be taken and has
      no counterpart. */
  function Render(kind: Kind, name: Option<string>, data: string, indent: int): seq<string> {
    var head := Head(indent);
    var body := Replace(data, BREAK, "\n" + head);
    match kind
    case Brief => [head + "<summary>\n", head + body + "\n", head + "</summary>\n"]
    case Param => [head + "<param name=\"" + NameText(name) + "\">" + body + "</param>\n"]
    case Return => [head + "<returns>" + body + "</returns>\n"]
    case Author => [head + "<author>" + body + "</author>\n"]
    case Date => [head + "<date>" + body + "</date>\n"]
    case Remark => [head + body + "\n"]
    case Other(_) => []
  }

  datatype Flushed = Flushed(block: Block, out: seq<string>)

  /** `handleExistingData(indent)`: nothing happens without a pending kind
      or without text; otherwise the directive is written and kind, name
      and text are cleared together, also for a kind that writes nothing.
      The indent is left alone. */
  function Flush(b: Block): (r: Flushed)
    ensures b.kind.None? || b.data == [] ==> r == Flushed(b, [])
    ensures b.kind.Some? && b.data != [] ==> r.block == Block(None, None, [], b.indent)
    ensures b.kind.Some? && b.kind.value.Other? ==> r.out == []
    ensures b.kind.Some? && !b.kind.value.Other? && b.data != [] ==> r.out != []
    ensures forall k :: 0 <= k < |r.out| ==> StartsWith(r.out[k], Head(b.indent))
  {
    if b.kind.None? || b.data == [] then Flushed(b, [])
    else Flushed(Block(None, None, [], b.indent), Render(b.kind.value, b.name, b.data, b.indent))
  }

  /** The physical lines of a flush, each as `head + text + "\n"`. */
  function Lines(head: string, texts: seq<string>): (ls: seq<string>)
    ensures |ls| == |texts|
    ensures forall k :: 0 <= k < |ls| ==> ls[k] == head + texts[k] + "\n"
  {
    seq(|texts|, k requires 0 <= k < |texts| => head + texts[k] + "\n")
  }

  /** Wraps a run of text lines in an opening and a closing tag: the first
      line gets `open` in front, the last gets `close` behind. */
  function Wrap(open: string, texts: seq<string>, close: string): (ws: seq<string>)
    requires |texts| >= 1
    ensures |ws| == |texts|
    decreases |texts|
  {
    if |texts| == 1 then [open + texts[0] + close]
    else [open + texts[0]] + Wrap([], texts[1..], close)
  }

  /** What goes where in a wrapped run: the opening tag only in front of
      the first line, the closing tag only behind the last, and the lines
      in between as they are. */
  lemma {:induction false} WrapPlacesTags(open: string, texts: seq<string>, close: string)
    requires |texts| >= 1
    ensures var ws := Wrap(open, texts, close);
            && (|texts| == 1 ==> ws[0] == open + texts[0] + close)
            && (|texts| > 1 ==> ws[0] == open + texts[0] && ws[|ws| - 1] == texts[|texts| - 1] + close)
            && (forall k :: 0 < k < |ws| - 1 ==> ws[k] == texts[k])
    decreases |texts|
  {
    if |texts| > 1 {
      var rest := texts[1..];
      WrapPlacesTags([], rest, close);
      var ws := Wrap(open, texts, close);
      var wr := Wrap([], rest, close);
      assert ws == [open + texts[0]] + wr;
      if |rest| == 1 {
        assert wr[0] == [] + rest[0] + close == texts[1] + close;
      } else {
        assert wr[0] == [] + rest[0] == texts[1];
      }
      forall k | 0 < k < |ws| - 1 ensures ws[k] == texts[k] {
        assert ws[k] == wr[k - 1];
      }
    }
  }

  /** The text lines a flush stands for, with the accumulated lines kept
      apart: a reference description of the emitter, independent of how
      the source builds its writes. */
  function LogicalLines(b: Block): seq<string> {
    if b.kind.None? || b.data == [] then [] else
      var parts := Split(b.data, BREAK);
      match b.kind.value
      case Brief => ["<summary>"] + parts + ["</summary>"]
      case Param => Wrap("<param name=\"" + NameText(b.name) + "\">", parts, "</param>")
      case Return => Wrap("<returns>", parts, "</returns>")
      case Author => Wrap("<author>", parts, "</author>")
      case Date => Wrap("<date>", parts, "</date>")
      case Remark => parts
      case Other(_) => []
  }

  /** The text a flush writes is exactly its logical lines, one per output
      line and each behind the block's head. */
  lemma FlushWritesLogicalLines(b: Block)
    ensures Concat(Flush(b).out) == Concat(Lines(Head(b.indent), LogicalLines(b)))
  {
    if b.kind.Some? && b.data != [] {
      var head := Head(b.indent);
      var body := Replace(b.data, BREAK, "\n" + head);
      var parts := Split(b.data, BREAK);
      assert Flush(b).out == Render(b.kind.value, b.name, b.data, b.indent);
      match b.kind.value
      case Brief =>
        assert LogicalLines(b) == ["<summary>"] + parts + ["</summary>"];
        SummaryLines(head, b.data);
      case Param =>
        var open := "<param name=\"" + NameText(b.name) + "\">";
        assert LogicalLines(b) == Wrap(open, parts, "</param>");
        assert head + open == head + "<param name=\"" + NameText(b.name) + "\">";
        assert head + open + body + "</param>\n" == head + open + body + "</param>" + "\n";
        assert Flush(b).out == [head + open + body + "</param>\n"];
        TaggedLines(head, open, b.data, "</param>");
      case Return =>
        assert LogicalLines(b) == Wrap("<returns>", parts, "</returns>");
        assert head + "<returns>" + body + "</returns>\n" == head + "<returns>" + body + "</returns>" + "\n";
        assert Flush(b).out == [head + "<returns>" + body + "</returns>\n"];
        TaggedLines(head, "<returns>", b.data, "</returns>");
      case Author =>
        assert LogicalLines(b) == Wrap("<author>", parts, "</author>");
        assert head + "<author>" + body + "</author>\n" == head + "<author>" + body + "</author>" + "\n";
        assert Flush(b).out == [head + "<author>" + body + "</author>\n"];
        TaggedLines(head, "<author>", b.data, "</author>");
      case Date =>
        assert LogicalLines(b) == Wrap("<date>", parts, "</date>");
        assert head + "<date>" + body + "</date>\n" == head + "<date>" + body + "</date>" + "\n";
        assert Flush(b).out == [head + "<date>" + body + "</date>\n"];
        TaggedLines(head, "<date>", b.data, "</date>");
      case Remark =>
        assert LogicalLines(b) == parts;
        assert head + [] + body + [] + "\n" == head + body + "\n";
        WrapNothing(parts);
        TaggedLines(head, [], b.data, []);
      case Other(_) =>
    }
  }

  /** The single write of a one-line tag covers one output line per accumulated line. */
  lemma TaggedLines(head: string, open: string, data: string, close: string)
    ensures Concat([head + open + Replace(data, BREAK, "\n" + head) + close + "\n"])
            == Concat(Lines(head, Wrap(open, Split(data, BREAK), close)))
  {
    ReplaceIsJoinOfSplit(data, BREAK, "\n" + head);
    ConcatWrapped(head, open, Split(data, BREAK), close);
    var w := head + open + Replace(data, BREAK, "\n" + head) + close + "\n";
    assert Concat([w]) == w + Concat([]);
  }

  /** The three writes of a brief cover a `<summary>` line, one line per
      accumulated line and a `</summary>` line. */
  lemma SummaryLines(head: string, data: string)
    ensures Concat([head + "<summary>\n", head + Replace(data, BREAK, "\n" + head) + "\n", head + "</summary>\n"])
            == Concat(Lines(head, ["<summary>"] + Split(data, BREAK) + ["</summary>"]))
  {
    var parts := Split(data, BREAK);
    var open, mid, close := head + "<summary>\n", head + Replace(data, BREAK, "\n" + head) + "\n", head + "</summary>\n";
    MiddleLines(head, data);
    TagLine(head, "<summary>");
    TagLine(head, "</summary>");
    assert head + "<summary>" + "\n" == open;
    assert head + "</summary>" + "\n" == close;
    LinesAppend(head, ["<summary>"], parts);
    LinesAppend(head, ["<summary>"] + parts, ["</summary>"]);
    ConcatThree([open], Lines(head, parts), [close]);
    ConcatThree([open], [mid], [close]);
    assert [open] + [mid] + [close] == [open, mid, close];
  }

  /** The middle write of a brief covers one line per accumulated line. */
  lemma MiddleLines(head: string, data: string)
    ensures Concat([head + Replace(data, BREAK, "\n" + head) + "\n"]) == Concat(Lines(head, Split(data, BREAK)))
  {
    TaggedLines(head, [], data, []);
    WrapNothing(Split(data, BREAK));
    assert head + [] + Replace(data, BREAK, "\n" + head) + [] + "\n" == head + Replace(data, BREAK, "\n" + head) + "\n";
  }

  lemma TagLine(head: string, tag: string)
    ensures Lines(head, [tag]) == [head + tag + "\n"]
  {
  }

  lemma ConcatThree(a: seq<string>, b: seq<string>, c: seq<string>)
    ensures Concat(a + b + c) == Concat(a) + Concat(b) + Concat(c)
  {
    ConcatAppend(a, b);
    ConcatAppend(a + b, c);
  }

  /** The lines of a wrapped run, written out, are one string with the
      text lines joined by a newline and the head. */
  lemma {:induction false} ConcatWrapped(head: string, open: string, texts: seq<string>, close: string)
    requires |texts| >= 1
    ensures Concat(Lines(head, Wrap(open, texts, close)))
            == head + open + Join(texts, "\n" + head) + close + "\n"
    decreases |texts|
  {
    if |texts| == 1 {
      assert Lines(head, Wrap(open, texts, close)) == [head + (open + texts[0] + close) + "\n"];
    } else {
      var sep := "\n" + head;
      var first := head + (open + texts[0]) + "\n";
      var rest := Wrap([], texts[1..], close);
      ConcatWrapped(head, [], texts[1..], close);
      LinesAppend(head, [open + texts[0]], rest);
      ConcatAppend(Lines(head, [open + texts[0]]), Lines(head, rest));
      assert Lines(head, [open + texts[0]]) == [first];
      assert Concat([first]) == first + Concat([]);
      var tail := Join(texts[1..], sep);
      assert Join(texts, sep) == texts[0] + sep + tail;
      calc {
        Concat(Lines(head, Wrap(open, texts, close)));
        first + (head + [] + tail + close + "\n");
        head + open + (texts[0] + sep + tail) + close + "\n";
      }
    }
  }

  /** Wrapping in empty tags changes nothing. */
  lemma {:induction false} WrapNothing(texts: seq<string>)
    requires |texts| >= 1
    ensures Wrap([], texts, []) == texts
    decreases |texts|
  {
    if |texts| > 1 {
      WrapNothing(texts[1..]);
      assert [] + texts[0] == texts[0];
      assert texts == [texts[0]] + texts[1..];
    } else {
      assert [] + texts[0] + [] == texts[0];
    }
  }

  lemma LinesAppend(head: string, a: seq<string>, b: seq<string>)
    ensures Lines(head, a + b) == Lines(head, a) + Lines(head, b)
  {
  }

  lemma {:induction false} ConcatAppend(a: seq<string>, b: seq<string>)
    ensures Concat(a + b) == Concat(a) + Concat(b)
    decreases |a|
  {
    if a != [] {
      assert (a + b)[1..] == a[1..] + b;
      ConcatAppend(a[1..], b);
    } else {
      assert a + b == b;
    }
  }
}

=== FILE: extract.dfy ===
/** Reading one comment line (convert.py:69-102, 126, 156-168, 193-196, 245-247).

    The two regular expressions of the source are leftmost searches:
    `(@|\\)` finds the first directive marker and `(/\*\*|///)` finds the
    first comment opener. Both are written here as explicit scans.
 */
module Extract {

  import opened Results
  import opened Text

  const CLOSE_COMMENT: string := "*/"
  /** The opener the extraction code compares against (convert.py:78, 89, 146, 179). */
  const BLOCK_FORM: string := "/*"
  const LINE_FORM: string := "///"
  /** The text between two accumulated lines (convert.py:204). */
  const BREAK: string := "!BREAK!"

  /** A character the pattern `(@|\\)` matches. */
  predicate IsMarker(c: char) {
    c == '@' || c == '\\'
  }

  predicate NoMarker(s: string) {
    forall i :: 0 <= i < |s| ==> !IsMarker(s[i])
  }

  /** Index of the first marker at or after `k`, or `|s|`. */
  function MarkerFrom(s: string, k: nat): (r: nat)
    requires k <= |s|
    ensures k <= r <= |s|
    ensures NoMarker(s[k..r])
    ensures r == |s| || IsMarker(s[r])
    decreases |s| - k
  {
    if k < |s| && !IsMarker(s[k]) then MarkerFrom(s, k + 1) else k
  }

  /** `re.search(START_SYMBOL, s)`: the position of the leftmost marker. */
  function FindMarker(s: string): (r: Option<nat>)
    ensures r.None? <==> NoMarker(s)
    ensures r.Some? ==> r.value < |s| && IsMarker(s[r.value]) && NoMarker(s[..r.value])
  {
    var i := MarkerFrom(s, 0);
    assert s[0..i] == s[..i];
    if i == |s| then None else Some(i)
  }

  /** The opener the pattern `(/\*\*|///)` matches at index `i`, if any.
      The two alternatives differ in their second character, so at most
      one of them can match at a given index. */
  function OpenerAt(s: string, i: int): (r: Option<string>)
    ensures r.Some? ==> (r.value == "/**" || r.value == "///") && OccursAt(s, r.value, i)
    ensures r.None? ==> !OccursAt(s, "/**", i) && !OccursAt(s, "///", i)
  {
    if OccursAt(s, "/**", i) then Some("/**")
    else if OccursAt(s, "///", i) then Some("///")
    else None
  }

  function SearchOpenerFrom(s: string, k: nat): (r: Option<nat>)
    requires k <= |s|
    ensures r.Some? ==> k <= r.value < |s| && OpenerAt(s, r.value).Some?
    ensures forall j :: k <= j && (r.None? || j < r.value) ==> OpenerAt(s, j).None?
    decreases |s| - k
  {
    if OpenerAt(s, k).Some? then Some(k)
    else if k == |s| then None
    else SearchOpenerFrom(s, k + 1)
  }

  /** `re.search(OPEN_COMMENT, s)`: the position of the leftmost opener;
      the matched text (`group(0)`) is `OpenerAt(s, position)`. */
  function SearchOpener(s: string): (r: Option<nat>)
    ensures r.Some? ==> r.value < |s| && OpenerAt(s, r.value).Some?
    ensures forall j :: 0 <= j && (r.None? || j < r.value) ==> OpenerAt(s, j).None?
  {
    SearchOpenerFrom(s, 0)
  }

  // Where `dataFromString` stops reading: at the first `*/` when the
  // opener is the block form and the line has one, else at the end.
  function CutPoint(s: string, opener: string): (cut: nat)
    ensures cut <= |s|
  {
    if opener == BLOCK_FORM && Contains(s, CLOSE_COMMENT) then Find(s, CLOSE_COMMENT) else |s|
  }

  /** `r` is the text of `s` read from `start`: a piece of `s` that starts
      there, ends by the cut point and does not end in whitespace, with
      only whitespace between it and the cut point. */
  predicate IsDataFrom(s: string, opener: string, start: int, r: string) {
    && (r != [] ==> 0 <= start && start + |r| <= CutPoint(s, opener)
                    && r == s[start..start + |r|] && !IsSpace(r[|r| - 1]))
    && (0 <= start <= CutPoint(s, opener) ==> AllSpace(s[start + |r|..CutPoint(s, opener)]))
  }

  /** `IsDataFrom` leaves no choice: at most one text is read from `start`. */
  lemma DataFromDetermined(s: string, opener: string, start: int, r1: string, r2: string)
    requires IsDataFrom(s, opener, start, r1) && IsDataFrom(s, opener, start, r2)
    ensures r1 == r2
  {
    var cut := CutPoint(s, opener);
    if 0 <= start <= cut {
      forall k | start + |r1| <= k < cut ensures IsSpace(s[k]) {
        assert s[k] == s[start + |r1|..cut][k - start - |r1|];
      }
      forall k | start + |r2| <= k < cut ensures IsSpace(s[k]) {
        assert s[k] == s[start + |r2|..cut][k - start - |r2|];
      }
      assert r1 != [] ==> r1[|r1| - 1] == s[start + |r1| - 1];
      assert r2 != [] ==> r2[|r2| - 1] == s[start + |r2| - 1];
      assert |r1| == |r2|;
    }
  }

  // `dataFromString(s, opener, start)` (convert.py:69-80): the text from
  // `start`, cut at the first `*/` for the block form, right-trimmed.
  function DataFromString(s: string, opener: string, start: nat): (r: string)
    ensures r != [] ==> start + |r| <= |s| && r == s[start..start + |r|]
    ensures r == [] || !IsSpace(r[|r| - 1])
    ensures opener == BLOCK_FORM && Contains(s, CLOSE_COMMENT) && r != [] ==>
              start + |r| <= Find(s, CLOSE_COMMENT)
    ensures start <= CutPoint(s, opener) ==> AllSpace(s[start + |r|..CutPoint(s, opener)])
    ensures IsDataFrom(s, opener, start, r)
  {
    var cut := CutPoint(s, opener);
    if start < cut then
      var r := RStrip(s[start..cut]);
      assert r == s[start..start + |r|];
      r
    else
      []
  }

  /** For an opener other than the block form, `dataFromString` is the
      rest of the line from `start`, right-trimmed. */
  lemma DataFromOpenLine(s: string, opener: string, start: nat)
    requires opener != BLOCK_FORM && start <= |s|
    ensures DataFromString(s, opener, start) == RStrip(s[start..])
  {
    assert CutPoint(s, opener) == |s|;
    assert s[start..|s|] == s[start..];
  }

  /** The prefix after which a comment line's text starts, for each form
      the extraction code knows. */
  function ContentPrefix(opener: string): string
    requires opener == BLOCK_FORM || opener == LINE_FORM
  {
    if opener == BLOCK_FORM then "* " else "/// "
  }

  /** `dataFromLine(line, opener)` (convert.py:82-102): the text after the
      first `* ` (block form) or `/// ` (line form), or empty when that
      prefix is missing; any other opener stops the program. */
  function DataFromLine(line: string, opener: string): (r: Result<string>)
    ensures r.Err? <==> opener != BLOCK_FORM && opener != LINE_FORM
    ensures r.Err? ==> r.error == UnknownCommentOpener(opener)
    ensures r.Ok? && !Contains(line, ContentPrefix(opener)) ==> r.value == []
    // the text read starts right after the first occurrence of the prefix
    ensures r.Ok? && Contains(line, ContentPrefix(opener)) ==>
              IsDataFrom(line, opener, Find(line, ContentPrefix(opener)) + |ContentPrefix(opener)|, r.value)
  {
    if opener == BLOCK_FORM then
      var i := Find(line, "* ");
      if i < 0 then Ok([]) else Ok(DataFromString(line, opener, i + 2))
    else if opener == LINE_FORM then
      var i := Find(line, "/// ");
      if i < 0 then Ok([]) else Ok(DataFromString(line, opener, i + 4))
    else
      Err(UnknownCommentOpener(opener))
  }

  /** Under the line form the text of a line is everything after its first
      `/// `, right-trimmed, and nothing when the line has no `/// `. */
  lemma DataFromLineForm(line: string)
    ensures Contains(line, "/// ") ==>
              DataFromLine(line, LINE_FORM) == Ok(RStrip(line[Find(line, "/// ") + 4..]))
    ensures !Contains(line, "/// ") ==> DataFromLine(line, LINE_FORM) == Ok([])
  {
    if Contains(line, "/// ") {
      DataFromOpenLine(line, LINE_FORM, Find(line, "/// ") + 4);
    }
  }

  /** `re.split(START_SYMBOL, line)[2]`: the text after the first marker up
      to the next marker or the end of the line. */
  function MarkerSegment(line: string): (seg: string)
    requires !NoMarker(line)
    ensures NoMarker(seg)
    ensures OccursAt(line, seg, FindMarker(line).value + 1)
    ensures FindMarker(line).value + 1 + |seg| == |line|
            || IsMarker(line[FindMarker(line).value + 1 + |seg|])
  {
    var i := FindMarker(line).value;
    var j := MarkerFrom(line, i + 1);
    line[i + 1..j]
  }

  /** `re.split(START_SYMBOL, line)[2].split()[0]` (convert.py:156): the
      directive word, or the `IndexError` when no word follows the marker. */
  function DirectiveWord(line: string): (r: Result<string>)
    requires !NoMarker(line)
    ensures r.Err? <==> AllSpace(MarkerSegment(line))
    ensures r.Err? ==> r.error == MissingDirectiveWord
    ensures r.Ok? ==> r.value != [] && NoSpace(r.value) && NoMarker(r.value)
    ensures r.Ok? ==> StartsWith(LStrip(MarkerSegment(line)), r.value)
    ensures r.Ok? ==> |r.value| == |LStrip(MarkerSegment(line))| || IsSpace(LStrip(MarkerSegment(line))[|r.value|])
  {
    var seg := MarkerSegment(line);
    match FirstWord(seg)
    case None => Err(MissingDirectiveWord)
    case Some(w) =>
      var t := LStrip(seg);
      assert w == t[..|w|] && t == seg[|seg| - |t|..];
      assert forall i :: 0 <= i < |w| ==> w[i] == seg[|seg| - |t| + i];
      Ok(w)
  }

  /** `text` is `name`, then a run of whitespace, then `desc`, where the
      name has no whitespace and the description does not start with any. */
  predicate IsParamSplit(text: string, name: string, desc: string) {
    && NoSpace(name)
    && |name| + |desc| < |text|
    && text[..|name|] == name
    && text[|text| - |desc|..] == desc
    && AllSpace(text[|name|..|text| - |desc|])
    && (desc == [] || !IsSpace(desc[0]))
  }

  /** The `@param` split (convert.py:164-168): the first whitespace run of
      `text` separates the name (before it) from the description (after
      it); `name` is `text[:end of run].rstrip()`. Without whitespace the
      match object is `None` and `.span()` raises. */
  function SplitParam(text: string): (r: Result<(string, string)>)
    ensures r.Err? <==> NoSpace(text)
    ensures r.Err? ==> r.error == ParamWithoutWhitespace
    ensures r.Ok? ==> IsParamSplit(text, r.value.0, r.value.1)
  {
    var i := SkipNonSpaces(text, 0);
    if i == |text| then
      assert text[0..i] == text;
      Err(ParamWithoutWhitespace)
    else
      var j := SkipSpaces(text, i + 1);
      SplitAtFirstSpace(text, i, j);
      Ok((RStrip(text[..j]), text[j..]))
  }

  /** With `i` the first whitespace of `text` and `j` the end of the
      whitespace run there, the right-trimmed text up to `j` and the text
      from `j` are a parameter split. */
  lemma SplitAtFirstSpace(text: string, i: nat, j: nat)
    requires i < |text| && i + 1 <= j <= |text|
    requires NoSpace(text[0..i]) && IsSpace(text[i])
    requires AllSpace(text[i + 1..j]) && (j == |text| || !IsSpace(text[j]))
    ensures !NoSpace(text)
    ensures IsParamSplit(text, RStrip(text[..j]), text[j..])
  {
    var p := text[..j];
    assert AllSpace(text[i..j]) by {
      assert text[i..j] == [text[i]] + text[i + 1..j];
    }
    assert p[..i] == text[0..i] && p[i..] == text[i..j];
    RStripOfWordThenSpace(p, i);
    assert text[..i] == text[0..i];
    assert IsParamSplit(text, text[..i], text[j..]);
  }

  /** A right-trim of non-whitespace followed by whitespace keeps exactly the non-whitespace. */
  lemma RStripOfWordThenSpace(p: string, i: nat)
    requires i < |p|
    requires NoSpace(p[..i]) && AllSpace(p[i..])
    ensures RStrip(p) == p[..i]
  {
    var r := RStrip(p);
    forall k | i <= k < |p| ensures IsSpace(p[k]) {
      assert p[k] == p[i..][k - i];
    }
    forall k | 0 <= k < i ensures !IsSpace(p[k]) {
      assert p[k] == p[..i][k];
    }
    forall k | |r| <= k < |p| ensures IsSpace(p[k]) {
      assert p[k] == p[|r|..][k - |r|];
    }
    assert r != [] ==> !IsSpace(p[|r| - 1]);
    assert |r| < |p| ==> IsSpace(p[|r|]);
    assert |r| == i;
  }
}

=== FILE: results.dfy ===
/** Failure-compatible wrappers for the converter.

    `convert.py` has three ways to stop mid-file: an explicit
    process exit when a comment line is parsed under an opener it does not
    know, an index error when a directive marker is followed by no word,
    and an attribute error when a `param` directive has no whitespace to
    split on. Each becomes an `Error` value here, so a conversion either
    yields its output or names the reason it stopped.
 */
module Results {

  datatype Option<+T> = None | Some(value: T)

  datatype Error =
    | UnknownCommentOpener(opener: string)  // the process exit of dataFromLine
    | MissingDirectiveWord                  // `split()[0]` on an empty token list
    | ParamWithoutWhitespace                // `re.search(r"\s+", ...)` found nothing

  datatype Result<+T> = Ok(value: T) | Err(error: Error) {

    predicate IsFailure() {
      Err?
    }

    function PropagateFailure<U>(): Result<U>
      requires Err?
    {
      Err(error)
    }

    function Extract(): T
      requires Ok?
    {
      value
    }
  }
}

=== FILE: scenarios.dfy ===
/** Whole-file behaviour on concrete inputs, and the facts about line
    shapes those inputs are built from. */
module Scenarios {

  import opened Results
  import opened Text
  import opened Directives
  import opened Extract
  import opened BlockState
  import opened Emitter
  import opened Comment
  import opened Driver
  import opened Corrected

  /** A string that starts with a non-whitespace character is its own
      left-trim. */
  lemma LStripKeeps(s: string)
    requires s != [] && !IsSpace(s[0])
    ensures LStrip(s) == s
  {
  }

  /** A string whose character at `i` is not whitespace keeps at least
      `i + 1` characters when right-trimmed. */
  lemma RStripKeepsUpTo(s: string, i: nat)
    requires i < |s| && !IsSpace(s[i])
    ensures i < |RStrip(s)|
  {
    var r := RStrip(s);
    forall k | |r| <= k < |s| ensures IsSpace(s[k]) {
      assert s[|r|..][k - |r|] == s[k];
    }
  }

  /** A line that starts with `///` opens a line-form block at its first
      character, and is not the line that ends one. */
  lemma LineFormStart(line: string)
    requires StartsWith(line, LINE_FORM)
    ensures SearchOpener(line) == Some(0) && OpenerAt(line, 0) == Some(LINE_FORM)
    ensures !EndsLineRun(line, LINE_FORM)
  {
    assert line[..3][2] == '/';
    assert !OccursAt(line, "/**", 0);
    assert OccursAt(line, "///", 0);
    LStripKeeps(line);
    RStripKeepsUpTo(line, 2);
    assert Strip(line)[..3] == line[..3];
  }

  // A line that starts with `/**` opens a block at its first character,
  // under the matched text `/**`.
  lemma BlockFormStart(line: string)
    requires StartsWith(line, "/**")
    ensures SearchOpener(line) == Some(0) && OpenerAt(line, 0) == Some("/**")
  {
    assert OccursAt(line, "/**", 0);
  }

  /** The first marker of a line is where the first marker character is. */
  lemma FirstMarkerAt(line: string, i: nat)
    requires i < |line| && IsMarker(line[i]) && NoMarker(line[..i])
    ensures FindMarker(line) == Some(i)
  {
    assert IsMarker(line[i]);
    var r := FindMarker(line).value;
    forall k | 0 <= k < i ensures !IsMarker(line[k]) {
      assert line[..i][k] == line[k];
    }
    forall k | 0 <= k < r ensures !IsMarker(line[k]) {
      assert line[..r][k] == line[k];
    }
  }

  /** When the first marker of a line is followed directly by the word `w`
      and a whitespace character, `w` is the directive word. */
  lemma WordAfterFirstMarker(line: string, i: nat, w: string)
    requires i < |line| && IsMarker(line[i]) && NoMarker(line[..i])
    requires w != [] && NoSpace(w) && NoMarker(w)
    requires i + 1 + |w| < |line| && line[i + 1..i + 1 + |w|] == w && IsSpace(line[i + 1 + |w|])
    ensures !NoMarker(line) && DirectiveWord(line) == Ok(w)
  {
    SegmentStartsWithWord(line, i, w);
    var seg := MarkerSegment(line);
    LStripKeeps(seg);
    OneFirstWord(seg, DirectiveWord(line).value, w);
  }

  /** The segment after the first marker starts with `w` and a whitespace
      character. */
  lemma SegmentStartsWithWord(line: string, i: nat, w: string)
    requires i < |line| && IsMarker(line[i]) && NoMarker(line[..i])
    requires w != [] && NoMarker(w)
    requires i + 1 + |w| < |line| && line[i + 1..i + 1 + |w|] == w && IsSpace(line[i + 1 + |w|])
    ensures !NoMarker(line)
    ensures var seg := MarkerSegment(line);
            |w| < |seg| && seg[..|w|] == w && IsSpace(seg[|w|])
  {
    FirstMarkerAt(line, i);
    var seg := MarkerSegment(line);
    var e := i + 1 + |w|;
    forall k | i + 1 <= k < e ensures line[k] == w[k - i - 1] && !IsMarker(line[k]) {
      assert line[i + 1..e][k - i - 1] == line[k];
    }
    assert !IsMarker(line[e]);
    assert |seg| > |w|;
    assert seg[|w|] == line[e];
    forall k | 0 <= k < |w| ensures seg[k] == w[k] {
      assert seg[k] == line[i + 1 + k];
    }
  }

  /** Two words that both start `t` and end where `t` has whitespace or
      ends are the same word. */
  lemma OneFirstWord(t: string, v: string, w: string)
    requires StartsWith(t, v) && NoSpace(v) && (|v| == |t| || IsSpace(t[|v|]))
    requires |w| < |t| && t[..|w|] == w && NoSpace(w) && IsSpace(t[|w|])
    ensures v == w
  {
    forall k | 0 <= k < |v| ensures !IsSpace(t[k]) {
      assert t[..|v|][k] == t[k];
    }
    forall k | 0 <= k < |w| ensures !IsSpace(t[k]) {
      assert t[..|w|][k] == t[k];
    }
    assert |v| == |w|;
  }

  /** The leftmost occurrence is where the first occurrence is. */
  lemma FindIs(s: string, p: string, i: nat)
    requires OccursAt(s, p, i)
    requires forall j :: 0 <= j < i ==> !OccursAt(s, p, j)
    ensures Find(s, p) == i
  {
  }

  /** The text after the first occurrence of `word`, for an opener other
      than the block form: the rest of the line after one more character,
      right-trimmed. */
  lemma InlineTextAfter(line: string, opener: string, word: string, start: nat)
    requires word != [] && start <= |line|
    requires Find(line, word) + |word| + 1 == start
    requires opener != BLOCK_FORM
    ensures InlineText(line, opener, word) == RStrip(line[start..])
  {
    DataFromOpenLine(line, opener, start);
  }

  /** A string without `!` comes out of the break replacement unchanged. */
  lemma ReplaceNoBreak(s: string, repl: string)
    requires forall j :: 0 <= j < |s| ==> s[j] != '!'
    ensures Replace(s, BREAK, repl) == s
  {
    ReplaceIsJoinOfSplit(s, BREAK, repl);
    assert BREAK[0] == '!' && BREAK[1] == 'B';
    SplitJoin([s], BREAK);
  }

  // ---- the `/**` opener, as written and corrected -----------------------

  // As written: a file whose first line is `/**` stops at that line.
  lemma BlockOpenerExample()
    ensures Convert(["/**\n"]) == Err(UnknownCommentOpener("/**"))
    ensures ConvertFixed(["/**\n"]).Ok?
  {
    BlockFormStart("/**\n");
    BlockOpenerStops(Start(), "/**\n");
    RunOne(Start(), "/**\n");
    BlockOpenerCloses(Start(), "/**\n");
    RunFixedOne(Start(), "/**\n");
  }

  // ---- the end of the file, as written and corrected --------------------

  /** A right-trim keeps everything up to the last non-whitespace character. */
  lemma RStripTo(p: string, i: nat)
    requires 0 < i <= |p| && !IsSpace(p[i - 1]) && AllSpace(p[i..])
    ensures RStrip(p) == p[..i]
  {
    var r := RStrip(p);
    RStripKeepsUpTo(p, i - 1);
    forall k | i <= k < |p| ensures IsSpace(p[k]) {
      assert p[i..][k - i] == p[k];
    }
  }

  lemma BriefLineOpens()
    ensures SearchOpener("/// @brief Does X.\n") == Some(0)
    ensures OpenerAt("/// @brief Does X.\n", 0) == Some(LINE_FORM)
    ensures !EndsLineRun("/// @brief Does X.\n", LINE_FORM)
    ensures IndentOf("/// @brief Does X.\n") == 0
  {
    LineFormStart("/// @brief Does X.\n");
    LStripKeeps("/// @brief Does X.\n");
  }

  lemma BriefLineWord()
    ensures !NoMarker("/// @brief Does X.\n")
    ensures DirectiveWord("/// @brief Does X.\n") == Ok("brief")
  {
    assert NoMarker("/// @brief Does X.\n"[..4]) by {
      assert "/// @brief Does X.\n"[..4] == "/// ";
    }
    assert "/// @brief Does X.\n"[5..10] == "brief";
    WordAfterFirstMarker("/// @brief Does X.\n", 4, "brief");
  }

  lemma BriefLineText()
    ensures InlineText("/// @brief Does X.\n", LINE_FORM, "brief") == "Does X."
  {
    BriefLineRest();
    DoesXTrim();
  }

  lemma BriefLineRest()
    ensures InlineText("/// @brief Does X.\n", LINE_FORM, "brief") == RStrip("Does X.\n")
  {
    BriefAt5();
    InlineTextAfter("/// @brief Does X.\n", LINE_FORM, "brief", 11);
    assert "/// @brief Does X.\n"[11..] == "Does X.\n";
  }

  lemma BriefAt5()
    ensures Find("/// @brief Does X.\n", "brief") == 5
  {
    assert "/// @brief Does X.\n"[5..10] == "brief";
    NoOccurrenceBefore("/// @brief Does X.\n", "/// @", "brief");
    FindIs("/// @brief Does X.\n", "brief", 5);
  }

  lemma DoesXTrim()
    ensures RStrip("Does X.\n") == "Does X."
  {
    RStripTo("Does X.\n", 7);
    assert "Does X.\n"[..7] == "Does X.";
  }

  /** The brief directive on the one line of `/// @brief Does X.`. */
  lemma BriefLine()
    ensures var line := "/// @brief Does X.\n";
            && SearchOpener(line) == Some(0) && OpenerAt(line, 0) == Some(LINE_FORM)
            && !EndsLineRun(line, LINE_FORM)
            && !NoMarker(line) && DirectiveWord(line) == Ok("brief")
            && InlineText(line, LINE_FORM, "brief") == "Does X."
            && IndentOf(line) == 0
  {
    BriefLineOpens();
    BriefLineWord();
    BriefLineText();
  }

  /** A brief line read by a fresh block at indent 0 starts the brief
      with the line's inline text and writes nothing. */
  lemma FreshBrief(line: string, text: string)
    requires !NoMarker(line) && DirectiveWord(line) == Ok("brief")
    requires InlineText(line, LINE_FORM, "brief") == text
    ensures Directive(EndComment().(indent := 0), line, LINE_FORM)
            == Ok(Handled(Block(Some(Brief), None, text, 0), [], true))
  {
    var b0 := EndComment().(indent := 0);
    assert KindOfWord("brief") == Brief;
    assert Flush(b0) == Flushed(b0, []);
    assert StartDirective(b0, Brief, line, LINE_FORM) == Ok(Block(Some(Brief), None, text, 0));
  }

  /** The step a fresh converter takes on a brief line: the same for the
      loop as written and the corrected one. */
  lemma FreshBriefStep(line: string, text: string)
    requires SearchOpener(line) == Some(0) && OpenerAt(line, 0) == Some(LINE_FORM)
    requires !EndsLineRun(line, LINE_FORM) && IndentOf(line) == 0
    requires !NoMarker(line) && DirectiveWord(line) == Ok("brief")
    requires InlineText(line, LINE_FORM, "brief") == text
    ensures Step(Start(), line) == Ok(Stepped(Converter(Block(Some(Brief), None, text, 0), true, LINE_FORM), []))
    ensures StepFixed(Start(), line) == Step(Start(), line)
  {
    FreshBrief(line, text);
    assert WithIndent(EndComment(), line) == EndComment().(indent := 0);
    assert HandleCommentLine(EndComment(), line, LINE_FORM) == Ok(Handled(Block(Some(Brief), None, text, 0), [], true));
  }

  /** A file of one line that writes nothing when read: the loop as
      written writes nothing, the corrected one writes the final flush. */
  lemma OneQuietLine(line: string, after: Converter)
    requires Step(Start(), line) == Ok(Stepped(after, []))
    requires StepFixed(Start(), line) == Step(Start(), line)
    ensures Convert([line]) == Ok([])
    ensures ConvertFixed([line]) == Ok(Flush(after.block).out)
  {
    RunOne(Start(), line);
    RunFixedOne(Start(), line);
    assert [] + Flush(after.block).out == Flush(after.block).out;
  }

  /** A file that is a single brief line: as written nothing is written,
      the corrected conversion writes the brief. */
  lemma SingleBriefLine(line: string, text: string)
    requires SearchOpener(line) == Some(0) && OpenerAt(line, 0) == Some(LINE_FORM)
    requires !EndsLineRun(line, LINE_FORM) && IndentOf(line) == 0
    requires !NoMarker(line) && DirectiveWord(line) == Ok("brief")
    requires InlineText(line, LINE_FORM, "brief") == text
    ensures Convert([line]) == Ok([])
    ensures ConvertFixed([line]) == Ok(Flush(Block(Some(Brief), None, text, 0)).out)
  {
    FreshBriefStep(line, text);
    OneQuietLine(line, Converter(Block(Some(Brief), None, text, 0), true, LINE_FORM));
  }

  lemma HeadZero()
    ensures Head(0) == "/// "
  {
    assert Repeat("    ", 0) == [];
  }

  /** The brief of `Does X.` at indent 0, written out. */
  lemma BriefDoesX()
    ensures Flush(Block(Some(Brief), None, "Does X.", 0)).out
            == ["/// <summary>\n", "/// Does X.\n", "/// </summary>\n"]
  {
    HeadZero();
    ReplaceNoBreak("Does X.", "\n" + "/// ");
    assert Flush(Block(Some(Brief), None, "Does X.", 0)).out
           == ["/// " + "<summary>\n", "/// " + "Does X." + "\n", "/// " + "</summary>\n"];
    LiteralJoins();
  }

  lemma LiteralJoins()
    ensures "/// " + "<summary>\n" == "/// <summary>\n"
    ensures "/// " + "Does X." + "\n" == "/// Does X.\n"
    ensures "/// " + "</summary>\n" == "/// </summary>\n"
  {
    assert "/// " + "Does X." == "/// Does X.";
  }

  /** As written: a file that is one `@brief` line writes nothing at all;
      the corrected conversion writes the summary. */
  lemma PendingAtEndExample()
    ensures Convert(["/// @brief Does X.\n"]) == Ok([])
    ensures ConvertFixed(["/// @brief Does X.\n"])
            == Ok(["/// <summary>\n", "/// Does X.\n", "/// </summary>\n"])
  {
    BriefLine();
    SingleBriefLine("/// @brief Does X.\n", "Does X.");
    BriefDoesX();
  }
}

=== FILE: text.dfy ===
/** The handful of Python `str` operations the converter is built from,
    written out on `seq<char>`: whitespace as `str.isspace` sees it,
    `strip`/`lstrip`/`rstrip`, `find`, `in`, slicing with non-negative
    bounds, `*` on strings and `replace`. `Split` and `Join` on a
    separator are not called by the source: they are reference definitions
    that pin down `replace` and the emitter's logical lines.
 */
module Text {

  import opened Results

  /** Python's `str.isspace()` for one character. The same set is used by
      `str.strip()`, `str.split()` and the regular-expression class `\s`. */
  predicate IsSpace(c: char) {
    || ('\t' <= c <= '\r')
    || ('\U{001c}' <= c <= '\U{001f}')
    || c == ' '
    || c == '\U{0085}'
    || c == '\U{00a0}'
    || c == '\U{1680}'
    || ('\U{2000}' <= c <= '\U{200a}')
    || c == '\U{2028}'
    || c == '\U{2029}'
    || c == '\U{202f}'
    || c == '\U{205f}'
    || c == '\U{3000}'
  }

  predicate AllSpace(s: string) {
    forall i :: 0 <= i < |s| ==> IsSpace(s[i])
  }

  predicate NoSpace(s: string) {
    forall i :: 0 <= i < |s| ==> !IsSpace(s[i])
  }

  /** `s.rstrip()`: the longest prefix of `s` after which only whitespace follows. */
  function RStrip(s: string): (r: string)
    ensures |r| <= |s| && r == s[..|r|]
    ensures AllSpace(s[|r|..])
    ensures r == [] || !IsSpace(r[|r| - 1])
  {
    if |s| > 0 && IsSpace(s[|s| - 1]) then
      var t := s[..|s| - 1];
      var r := RStrip(t);
      assert r == s[..|r|] by {
        assert t[..|r|] == s[..|r|];
      }
      assert AllSpace(s[|r|..]) by {
        forall k | |r| <= k < |s| ensures IsSpace(s[k]) {
          if k < |t| {
            assert s[k] == t[|r|..][k - |r|];
          }
        }
      }
      r
    else
      s
  }

  /** `s.lstrip()`: the longest suffix of `s` before which only whitespace stands. */
  function LStrip(s: string): (r: string)
    ensures |r| <= |s| && r == s[|s| - |r|..]
    ensures AllSpace(s[..|s| - |r|])
    ensures r == [] || !IsSpace(r[0])
  {
    var n := SkipSpaces(s, 0);
    assert s[0..n] == s[..n];
    s[n..]
  }

  /** `s.strip()`. */
  function Strip(s: string): string {
    RStrip(LStrip(s))
  }

  /** `s.startswith(p)`. */
  predicate StartsWith(s: string, p: string) {
    |p| <= |s| && s[..|p|] == p
  }

  /** `p` occurs in `s` starting at index `i`. */
  predicate OccursAt(s: string, p: string, i: int) {
    0 <= i && i + |p| <= |s| && s[i..i + |p|] == p
  }

  /** `s.find(p)`: the index of the leftmost occurrence of `p`, or -1. */
  function Find(s: string, p: string): (r: int)
    ensures -1 <= r <= |s|
    ensures r >= 0 ==> OccursAt(s, p, r)
    ensures forall j :: 0 <= j && (r < 0 || j < r) ==> !OccursAt(s, p, j)
  {
    FindFrom(s, p, 0)
  }

  function FindFrom(s: string, p: string, k: nat): (r: int)
    requires k <= |s|
    ensures r == -1 || k <= r <= |s|
    ensures r >= 0 ==> OccursAt(s, p, r)
    ensures forall j :: k <= j && (r < 0 || j < r) ==> !OccursAt(s, p, j)
    decreases |s| - k
  {
    if OccursAt(s, p, k) then k
    else if k == |s| then -1
    else FindFrom(s, p, k + 1)
  }

  /** `p in s`. */
  predicate Contains(s: string, p: string) {
    Find(s, p) >= 0
  }

  /** `s[a:b]` for non-negative bounds: both are clamped to `|s|`, and a
      start at or past the end gives the empty string. */
  function Slice(s: string, a: nat, b: nat): (r: string)
    ensures a < |s| && a < b ==> r == s[a..if b < |s| then b else |s|]
    ensures a >= |s| || a >= b ==> r == []
  {
    var hi := if b < |s| then b else |s|;
    if a < hi then s[a..hi] else []
  }

  /** `s * n`: `n` copies of `s`, none when `n <= 0`. */
  function Repeat(s: string, n: int): (r: string)
    ensures |r| == if n <= 0 then 0 else n * |s|
    ensures forall i :: 0 <= i < |r| ==> r[i] in s
    decreases n
  {
    if n <= 0 then [] else s + Repeat(s, n - 1)
  }

  /** Index of the first non-whitespace character at or after `k`, or `|s|`. */
  function SkipSpaces(s: string, k: nat): (r: nat)
    requires k <= |s|
    ensures k <= r <= |s|
    ensures AllSpace(s[k..r])
    ensures r == |s| || !IsSpace(s[r])
    decreases |s| - k
  {
    if k < |s| && IsSpace(s[k]) then SkipSpaces(s, k + 1) else k
  }

  /** Index of the first whitespace character at or after `k`, or `|s|`. */
  function SkipNonSpaces(s: string, k: nat): (r: nat)
    requires k <= |s|
    ensures k <= r <= |s|
    ensures NoSpace(s[k..r])
    ensures r == |s| || IsSpace(s[r])
    decreases |s| - k
  {
    if k < |s| && !IsSpace(s[k]) then SkipNonSpaces(s, k + 1) else k
  }

  /** `s.split()[0]`, or nothing when that list is empty (the `IndexError`
      case): the first maximal run of non-whitespace characters. */
  function FirstWord(s: string): (r: Option<string>)
    ensures r.None? <==> AllSpace(s)
    ensures r.Some? ==> r.value != [] && NoSpace(r.value) && StartsWith(LStrip(s), r.value)
    ensures r.Some? ==> |r.value| == |LStrip(s)| || IsSpace(LStrip(s)[|r.value|])
  {
    var t := LStrip(s);
    if t == [] then
      assert s[..|s| - |t|] == s;
      None
    else
      Some(t[..SkipNonSpaces(t, 0)])
  }

  /** Concatenation of a list of strings, as the writes to a file add up. */
  function Concat(ss: seq<string>): string {
    if ss == [] then [] else ss[0] + Concat(ss[1..])
  }

  /** `sep.join(ss)` for a non-empty list. */
  function Join(ss: seq<string>, sep: string): string
    requires |ss| >= 1
  {
    if |ss| == 1 then ss[0] else ss[0] + sep + Join(ss[1..], sep)
  }

  /** `s.split(sep)` for a non-empty separator: the pieces between the
      non-overlapping occurrences of `sep` found left to right. */
  function Split(s: string, sep: string): (r: seq<string>)
    requires sep != []
    ensures |r| >= 1
    ensures forall k :: 0 <= k < |r| ==> !Contains(r[k], sep)
    // each cut is at the leftmost occurrence: none starts inside a piece
    // that a separator follows, even one overlapping that separator
    ensures forall k, j :: 0 <= k < |r| - 1 && 0 <= j < |r[k]| ==> !OccursAt(r[k] + sep, sep, j)
    decreases |s|
  {
    var i := Find(s, sep);
    if i < 0 then [s] else
      var head := s[..i];
      assert !Contains(head, sep) by {
        forall j | 0 <= j && j + |sep| <= |head|
          ensures !OccursAt(head, sep, j)
        {
          assert head[j..j + |sep|] == s[j..j + |sep|];
          assert !OccursAt(s, sep, j);
        }
      }
      assert head + sep == s[..i + |sep|];
      forall j | 0 <= j < |head| ensures !OccursAt(head + sep, sep, j) {
        assert !OccursAt(s, sep, j);
        if j + |sep| <= |head + sep| {
          assert (head + sep)[j..j + |sep|] == s[j..j + |sep|];
        }
      }
      [head] + Split(s[i + |sep|..], sep)
  }

  /** `s.replace(target, repl)` for a non-empty `target`. */
  function Replace(s: string, target: string, repl: string): string
    requires target != []
    decreases |s|
  {
    var i := Find(s, target);
    if i < 0 then s else s[..i] + repl + Replace(s[i + |target|..], target, repl)
  }

  /** Splitting on a separator and joining with the same separator gives back the string. */
  lemma {:induction false} JoinSplit(s: string, sep: string)
    requires sep != []
    ensures Join(Split(s, sep), sep) == s
    decreases |s|
  {
    var i := Find(s, sep);
    if i >= 0 {
      var rest := s[i + |sep|..];
      JoinSplit(rest, sep);
      assert Split(s, sep) == [s[..i]] + Split(rest, sep);
      assert s == s[..i] + sep + rest;
    }
  }

  /** `replace` is `split` followed by `join` with the replacement. */
  lemma {:induction false} ReplaceIsJoinOfSplit(s: string, target: string, repl: string)
    requires target != []
    ensures Replace(s, target, repl) == Join(Split(s, target), repl)
    decreases |s|
  {
    var i := Find(s, target);
    if i >= 0 {
      var rest := s[i + |target|..];
      ReplaceIsJoinOfSplit(rest, target, repl);
      assert Split(s, target) == [s[..i]] + Split(rest, target);
    }
  }

  /** `s` never has the characters `a` and `b` next to each other, in that order. */
  predicate NoPair(s: string, a: char, b: char) {
    forall j :: 0 <= j < |s| - 1 ==> !(s[j] == a && s[j + 1] == b)
  }

  /** Joining pieces none of which holds the separator's first two
      characters in a row, and splitting again, recovers the pieces: when
      those two characters differ, the separator can only be found where it
      was put. */
  lemma {:induction false} SplitJoin(ss: seq<string>, sep: string)
    requires |ss| >= 1 && |sep| >= 2 && sep[0] != sep[1]
    requires forall k :: 0 <= k < |ss| ==> NoPair(ss[k], sep[0], sep[1])
    ensures Split(Join(ss, sep), sep) == ss
    decreases |ss|
  {
    var s := Join(ss, sep);
    if |ss| == 1 {
      forall j | 0 <= j ensures !OccursAt(s, sep, j) {
        if j + |sep| <= |s| {
          assert s[j..j + |sep|][0] == s[j] && s[j..j + |sep|][1] == s[j + 1];
        }
      }
      assert Find(s, sep) < 0;
    } else {
      var rest := Join(ss[1..], sep);
      assert s == ss[0] + sep + rest;
      assert s[..|ss[0] + sep|] == ss[0] + sep;
      NoSeparatorBefore(s, ss[0], sep);
      assert s[|ss[0]|..|ss[0]| + |sep|] == sep;
      assert OccursAt(s, sep, |ss[0]|);
      assert Find(s, sep) == |ss[0]|;
      assert s[..|ss[0]|] == ss[0];
      assert s[|ss[0]| + |sep|..] == rest;
      assert Split(s, sep) == [ss[0]] + Split(rest, sep);
      SplitJoin(ss[1..], sep);
      assert ss == [ss[0]] + ss[1..];
    }
  }

  /** No occurrence of `sep` starts inside a prefix without `sep[0]`
      followed by `sep[1]`, when the separator itself comes right after it. */
  lemma NoSeparatorBefore(s: string, prefix: string, sep: string)
    requires |sep| >= 2 && sep[0] != sep[1]
    requires StartsWith(s, prefix + sep) && NoPair(prefix, sep[0], sep[1])
    ensures forall j :: 0 <= j < |prefix| ==> !OccursAt(s, sep, j)
  {
    forall j | 0 <= j < |prefix|
      ensures !OccursAt(s, sep, j)
    {
      assert s[|prefix|] == (prefix + sep)[|prefix|] == sep[0];
      if j + |sep| <= |s| {
        assert s[j..j + |sep|][0] == s[j] && s[j..j + |sep|][1] == s[j + 1];
        if j + 1 < |prefix| {
          assert s[j] == prefix[j] && s[j + 1] == prefix[j + 1];
        }
      }
    }
  }

  /** No occurrence of `sep` can start inside a prefix that lacks `sep[0]`. */
  lemma NoOccurrenceBefore(s: string, prefix: string, sep: string)
    requires sep != [] && StartsWith(s, prefix)
    requires forall j :: 0 <= j < |prefix| ==> prefix[j] != sep[0]
    ensures forall j :: 0 <= j < |prefix| ==> !OccursAt(s, sep, j)
  {
    forall j | 0 <= j < |prefix|
      ensures !OccursAt(s, sep, j)
    {
      assert s[j] == prefix[j] != sep[0];
      if j + |sep| <= |s| {
        assert s[j..j + |sep|][0] == s[j];
      }
    }
  }
}
